=== FILE: README.md ===
# Live polling session — a Dafny model

This project models the core of a classroom live-polling app. A teacher
creates a poll: a question, options and a time limit. The server broadcasts
the poll without its answer key and counts down once per second. Students
answer once each. When the countdown runs out, the server marks the poll
inactive and broadcasts percentage results.

The model has two parts.

- **The server** (`backend/app.js`). Its state holds the user registry, the
  poll store, the answer list, the running poll intervals and the log of
  emitted socket events. Each handler and each firing of a poll interval is
  one atomic, pure transition over that state (`PollServer`).
- **The client** (`frontend/src/App.jsx`). Its input checks (`ClientForms`)
  and its socket-event reducer, button predicates and submit guard
  (`ClientView`) are pure functions on records.

Modules, leaves first:

| file | module | contents |
|---|---|---|
| wrappers.dfy | `Wrappers` | `Option`, `Result` |
| text.dfy | `Text` | JavaScript `trim` and the blank-string test |
| schema.dfy | `Schema` | users, polls, options, answers, the sanitised broadcast poll, socket events |
| results.dfy | `Results` | `calculateResults` and the aggregation pass |
| timer.dfy | `Timer` | one poll interval, tick by tick |
| server.dfy | `PollServer` | server state, lookups, handlers, timer ticks, runs of operations |
| server_invariants.dfy | `ServerInvariants` | invariants of reachable states and multi-step properties |
| client_forms.dfy | `ClientForms` | name check, `updateOption`, teacher form validation |
| client_view.dfy | `ClientView` | socket-event reducer, button predicates, student submit |
| scenarios.dfy | `Scenarios` | client checks against the server, worked sessions |

In these places the model follows the code as written:

- A new poll *deletes* every active poll (`deleteMany`). It does not
  deactivate it.
- The deleted poll's interval is never cleared. It keeps emitting
  `timer-update`. When it runs out, `findById` finds nothing, so it emits no
  `poll-ended`.
- `submit-answer` does not range-check `selectedOption`. It does not check
  that the student is a registered user either.
- The server accepts any number of options and any time limit. Only the
  client asks for two options and a positive limit.
- `poll-ended` carries the poll's `correctOption`. The poll schema has no
  such field, so its value is undefined.

Mongoose schema validation is modelled because it decides outcomes:

- A user with an empty name, or a role outside `student`/`teacher`, is not
  saved (`ValidationFailed`, HTTP 500).
- An option with empty `content` makes the new poll fail to save. This
  happens *after* the active polls were already deleted.

Ids are natural numbers drawn from one counter, standing in for fresh
ObjectIds.

## Model

| member | source | states |
|---|---|---|
| Text.BlankIffAllWhitespace | frontend/src/App.jsx:58 | `s.trim()` is empty exactly when every character of `s` is JavaScript whitespace |
| Text.AllWhitespaceTrimsAway | frontend/src/App.jsx:58 | trimming a string made only of whitespace leaves nothing |
| Text.IsWhitespace | frontend/src/App.jsx:58 | the ECMAScript WhiteSpace and LineTerminator set: it contains space, tab, line feed and carriage return, and no visible ASCII character |
| Text.Trim | frontend/src/App.jsx:58 | `trim` never lengthens its input, and its result neither starts nor ends with whitespace |
| Text.IsBlank | frontend/src/App.jsx:95-100 | `!s.trim()` holds exactly when every character of `s` is whitespace |
| Text.TrimIsCore | frontend/src/App.jsx:99 | `trim` returns the middle slice between the leading and the trailing whitespace: every character it cuts is whitespace, and the slice neither starts nor ends with whitespace |
| Text.TrimSlice | frontend/src/App.jsx:99 | the trimmed string is the slice of the input after the leading whitespace, of the trimmed length |
| Text.TrimCutsWhitespace | frontend/src/App.jsx:99 | every character before or after that slice is whitespace |
| Schema.ParseRole | backend/app.js:20-23 | only `student` and `teacher` are roles, and a parsed role is stored under the same tag |
| Schema.Sanitize | backend/app.js:75-79 | the broadcast poll keeps every field and the number and order of options, each option reduced to its content |
| Schema.SanitizeHidesOnlyAnswerKey | backend/app.js:75-79 | two polls are broadcast identically exactly when they differ only in their `isCorrect` flags |
| Results.CalculateResults | backend/app.js:108-124 | the results vector has one entry per option of the poll |
| Results.ResultEntry | backend/app.js:109-123 | entry i is 0 when the poll has no answers, otherwise option i's count as a percentage of the poll's total, and lies in [0, 100] |
| Results.ResultsShape | backend/app.js:109-123 | all entries are 0 without answers, and every entry lies in [0, 100] |
| Results.Percent | backend/app.js:123 | a share is never negative, is 0 for no votes, and is 100 when every answer chose the option |
| Results.PercentOfTotal | backend/app.js:123 | a count not above the total gives a percentage in [0, 100], and percentage times total is count times 100 |
| Results.TotalFor | backend/app.js:109 | the `countDocuments` total never exceeds the number of stored answers |
| Results.TotalZeroIff | backend/app.js:109-111 | the total is 0, the case that yields all zeros, exactly when no stored answer belongs to the poll |
| Results.CountFor | backend/app.js:119-122 | an option's bucket never exceeds the number of stored answers; `CountAtMostTotal` bounds it by the poll's total |
| Results.CountAtMostTotal | backend/app.js:109-122 | no option's bucket exceeds the poll's total |
| Results.OnlyPoll | backend/app.js:109-115 | the `{ pollId }` filter keeps exactly the stored answers that carry the poll's id |
| Results.OnlyPollCounts | backend/app.js:109-116 | counts and total are the same when computed over the poll's own answers only |
| Results.OnlyPollResults | backend/app.js:109-123 | answers to other polls do not affect a poll's results |
| Results.CountsSumAtMostTotal | backend/app.js:109-122 | the buckets sum to at most the total, and to exactly the total iff every answer for the poll selected an index in range |
| Results.InRangeVersusTotal | backend/app.js:119-122 | in-range answers number at most the total, and equal it iff no selection is out of range |
| Results.Aggregate | backend/app.js:114-122 | one pass that groups a poll's answers by selected index yields its total and every option's count |
| Results.ResultsByAggregation | backend/app.js:114-123 | results computed from the aggregation pass equal `CalculateResults` |
| Timer.Step | backend/app.js:92-94 | a tick emits a value below the current count and expires exactly when that value is at most 0 |
| Timer.Countdown | backend/app.js:90-95 | an interval emits at least one value; every value before the last is positive and the last is at most 0 |
| Timer.CountdownIsExpected | backend/app.js:90-95 | a limit n at least 1 emits n-1, n-2, ..., 0; a limit n at most 0 emits only n-1 |
| Timer.TicksUntilExpiry | backend/app.js:90-95 | the interval fires n times for n at least 1, and once otherwise |
| Timer.RunInterval | backend/app.js:89-105 | running the interval until it clears itself emits exactly the expected countdown, n-1, ..., 0 for a limit n at least 1 and n-1 alone otherwise |
| PollServer.FindUserByName | backend/app.js:52 | returns a registered user with that name and role, and none exactly when there is no such user |
| PollServer.FindUser | backend/app.js:67 | returns a user with the id, and none exactly when no user has it |
| PollServer.FindPoll | backend/app.js:133 | returns a stored poll with the id, and none exactly when no poll has it |
| PollServer.FindActive | backend/app.js:149 | returns an active stored poll, and none exactly when no poll is active |
| PollServer.FindAnswer | backend/app.js:135 | returns a stored answer of that student to that poll, and none exactly when there is none |
| PollServer.RemoveActive | backend/app.js:71 | the polls left are exactly the stored inactive ones |
| PollServer.SetInactive | backend/app.js:98-99 | the poll with the id becomes inactive, and nothing else changes |
| PollServer.CreateUser | backend/app.js:49-61 | returns the existing user for a known (name, role) without change; otherwise saves one fresh user, or refuses an empty name or unknown role with nothing changed |
| PollServer.IsTeacher | backend/app.js:67-68 | a creator passes only if a stored user with that id is a teacher; an unknown id never passes; `IsTeacherIff` gives the converse |
| ServerInvariants.IsTeacherIff | backend/app.js:67-68 | in a valid state, a creator passes the teacher check exactly when a stored user with that id is a teacher |
| PollServer.HasEmptyContent | backend/app.js:32 | the schema's required `content` refuses the poll exactly when some option's content is empty |
| PollServer.CreatePoll | backend/app.js:64-86 | a non-teacher is refused with nothing changed; otherwise active polls are deleted and inactive ones kept; an empty option content is refused after the deletion; on success the new poll is the only active one, broadcast sanitised, with its timer started |
| PollServer.Accepts | backend/app.js:134-136 | an accepted answer has an active stored poll with its id, and no stored answer of that student to that poll |
| PollServer.SubmitAnswer | backend/app.js:131-145 | the answer is appended iff its poll exists and is active and the student has not answered it; otherwise nothing changes; earlier answers are never altered |
| PollServer.GetCurrentPoll | backend/app.js:148-157 | returns an active poll, sanitised, and nothing exactly when no poll is active |
| PollServer.Tick | backend/app.js:89-105 | a tick emits the decremented count; at or below 0 the interval stops and, if the poll exists, it is made inactive and its results are emitted; a missing poll yields no `poll-ended` |
| ServerInvariants.CreateUserValid | backend/app.js:49-61 | registering keeps ids fresh and users distinct by (name, role) |
| ServerInvariants.CreatePollValid | backend/app.js:64-86 | poll creation keeps at most one active poll and keeps every active poll matched by a running interval |
| ServerInvariants.RemoveActiveValid | backend/app.js:71 | deleting the active polls keeps the invariants and leaves no poll active |
| ServerInvariants.AddPollValid | backend/app.js:74-81 | saving a fresh poll with its interval started, when none is active, keeps the invariants |
| ServerInvariants.SubmitAnswerValid | backend/app.js:133-138 | submitting keeps one answer per (poll, student) |
| ServerInvariants.SetInactiveValid | backend/app.js:95-99 | stopping an interval and saving its poll inactive keeps active polls matched by running intervals |
| ServerInvariants.TickValid | backend/app.js:91-103 | a tick keeps the invariants, including active polls matching running intervals |
| ServerInvariants.StepValid | backend/app.js:49-157 | every handler and tick preserves the invariants |
| ServerInvariants.RunValid | backend/app.js:49-157 | any sequence of operations preserves the invariants |
| ServerInvariants.ReachableStatesAreValid | backend/app.js:40 | from an empty server, any sequence of operations leaves at most one active poll and at most one answer per (poll, student) |
| ServerInvariants.CreateUserIdempotent | backend/app.js:52-56 | registering the same (name, role) again returns the same user and leaves the state unchanged |
| ServerInvariants.CreatePollSupersedes | backend/app.js:71-79 | after a successful create-poll, the new poll is the only active one, no previously active poll's id remains, and `get-current-poll` returns what `new-poll` broadcast, up to the populated `createdBy`, which is left out |
| ServerInvariants.AcceptsIff | backend/app.js:133-136 | in a valid state, an answer is accepted iff a poll with its id is active and the student has not answered it |
| ServerInvariants.SubmitAnswerRecords | backend/app.js:135-138 | an accepted answer is the one stored for that student and poll |
| ServerInvariants.StepKeepsAnswer | backend/app.js:135-138 | no single operation changes a stored answer |
| ServerInvariants.FirstAnswerWins | backend/app.js:135-138 | once an answer is stored, no sequence of operations replaces it |
| ServerInvariants.RunKeepsGone | backend/app.js:71-72 | a deleted poll id never reappears in the store |
| ServerInvariants.TickOfGonePoll | backend/app.js:92-97 | a tick of a deleted poll's interval emits at most a `timer-update` |
| ServerInvariants.SupersededPollNeverEnds | backend/app.js:71-101 | a poll superseded by a teacher's create-poll never gets a `poll-ended`, whatever happens later |
| ServerInvariants.EventsConcat | backend/app.js:93-101 | the counted `timer-update` values and `poll-ended` events of a joined log are those of its parts |
| ServerInvariants.ExpiringTick | backend/app.js:92-101 | the last firing emits the final count, stops the interval, and emits one `poll-ended` iff the poll is still stored |
| ServerInvariants.DrainEmitsCountdown | backend/app.js:89-105 | a running interval fired until it clears emits exactly its countdown, and one `poll-ended` iff its poll still exists |
| ServerInvariants.NewPollCountsDown | backend/app.js:81-101 | when its interval fires with no other operation in between, a new poll with limit n counts down n-1, ..., 0 (or only n-1 when n is at most 0) and then ends exactly once |
| ServerInvariants.StepKeepsTimer | backend/app.js:89-95 | in a valid state, any operation other than the poll's own tick leaves its running countdown unchanged |
| ServerInvariants.RunKeepsTimer | backend/app.js:89-95 | under any interleaving without its own tick, a running countdown keeps its value and stays running |
| ServerInvariants.StepKeepsCleared | backend/app.js:95-96 | no operation restarts a cleared interval of an id already issued |
| ServerInvariants.RunKeepsCleared | backend/app.js:95-96 | once an interval is cleared, no sequence of operations gives its poll a countdown again |
| ClientForms.CheckUser | frontend/src/App.jsx:57-67 | a name of whitespace only is refused with "Name is required"; otherwise it is sent untrimmed and is non-empty |
| ClientForms.UpdateOption | frontend/src/App.jsx:88-92 | only the given field of the given row changes |
| ClientForms.UpdateOptionUndo | frontend/src/App.jsx:88-92 | writing back the field's old value restores the rows |
| ClientForms.Filter | frontend/src/App.jsx:99 | `Array.prototype.filter` never returns more elements than it was given |
| ClientForms.FilterMembers | frontend/src/App.jsx:99 | `filter` keeps exactly the elements its callback accepts, so the non-blank rows are exactly the rows whose trimmed content is non-empty |
| ClientForms.FilterConcat | frontend/src/App.jsx:99 | `filter` keeps order and decides element by element: the filter of a join is the join of the filters |
| ClientForms.FilterKeepsAccepted | frontend/src/App.jsx:99 | rows that are all filled in are all kept, unchanged and in order |
| ClientForms.NonBlankOptions | frontend/src/App.jsx:99 | the kept rows are exactly the typed rows whose content is not blank, and never more than were typed |
| ClientForms.Project | frontend/src/App.jsx:126 | each sent option is its row's content and correctness flag, in order |
| ClientForms.ValidatePoll | frontend/src/App.jsx:94-129 | the checks run in order (name only while unregistered, question, two non-blank options, positive limit), and the first failure's message is returned with nothing sent; a form passing all four checks is sent, with the untrimmed question, the non-blank rows and the form's own time limit |
| ClientForms.ValidPollOptions | frontend/src/App.jsx:99-107 | a passing form sends at least two options, each with non-blank and non-empty content |
| ClientForms.ClearedFormIsRefused | frontend/src/App.jsx:132-139 | the form cleared after creation is refused with "Question is required" |
| ClientView.Receive | frontend/src/App.jsx:30-42 | `new-poll` sets the poll and its time limit and hides results; `timer-update` sets the remaining time; `poll-ended` sets and shows results; nothing else changes |
| ClientView.FreshViewShowsResultsIff | frontend/src/App.jsx:20-42 | starting from the initial state, results are shown exactly when a `poll-ended` came after the last `new-poll` |
| ClientView.ShowResultsIff | frontend/src/App.jsx:30-42 | after a stream of events, results are shown iff a `poll-ended` came after the last `new-poll`, or they were shown and no `new-poll` came |
| ClientView.OptionsDisabled | frontend/src/App.jsx:193 | the option buttons are always disabled while results are shown, and otherwise exactly when no time remains |
| ClientView.SubmitDisabled | frontend/src/App.jsx:201-203 | Submit is disabled whenever the option buttons are, and otherwise exactly when nothing is selected |
| ClientView.ClickOption | frontend/src/App.jsx:188-203 | a click selects the option unless the option buttons are disabled; afterwards Submit is enabled exactly when the options were, and a click never changes whether the options are disabled |
| ClientView.ButtonsFollowEvents | frontend/src/App.jsx:193-203 | after `poll-ended`, or a `timer-update` at or below 0, nothing can be submitted; after `new-poll` the options are disabled iff its limit is at most 0 |
| ClientView.SendAnswer | frontend/src/App.jsx:75-86 | the answer is emitted iff a poll, a selection and a user id are present, and then the selection is cleared; otherwise only the error is set |
| ClientView.ClickSubmit | frontend/src/App.jsx:198-206 | a disabled Submit does nothing; an enabled one runs `handleStudentAnswer`, and so sends whenever a poll and a user id are present; an emitted answer implies time remains, results are hidden and an option is selected |
| ClientView.NoDoubleSubmit | frontend/src/App.jsx:82 | right after a submission a second submit emits nothing |
| Scenarios.CheckedUserIsRegistered | frontend/src/App.jsx:58-67 | a name that passes the client's check is always registered by the server |
| Scenarios.CheckedPollIsCreated | frontend/src/App.jsx:124-129 | a registered teacher's poll that passes the client's form is always created by the server |
| Scenarios.ClassroomOpens | backend/app.js:64-86 | a registered teacher's poll is stored active with id 1, its interval started at 2, and broadcast without its answer key |
| Scenarios.ClassroomAnswers | backend/app.js:131-145 | two students' first answers are stored and a repeated answer is ignored |
| Scenarios.ClassroomResults | backend/app.js:108-124 | one answer for each of two options gives 50% and 50% |
| Scenarios.ClassroomEnds | backend/app.js:89-105 | a two-second interval emits 1, then 0, then ends the poll with its results and stops |
| Scenarios.Classroom | backend/app.js:64-123 | a two-option, two-second poll with two students and one repeated answer ends with results 50% and 50% |
| Scenarios.AggregationExample | backend/app.js:108-124 | counts 3, 1, 0 out of 4 give 75%, 25%, 0%; no answers give all zeros |

## Left out

- Results.CalculateResults: the exact ratio is kept. The source rounds with `toFixed(2)` and sends strings (numbers `0` when there are no answers). Floating point and string formatting are outside the model.
- Express routing, HTTP status codes, CORS and the MongoDB connection are not modelled. Errors are values of `ServerError`.
- Malformed ids (a `CastError`, answered with HTTP 500 or swallowed by `submit-answer`) are not modelled. Ids are natural numbers.
- Document timestamps, `__v`, the subdocument `_id` of options, and `populate('createdBy', 'name')` on `get-current-poll` are not modelled.
- `correctOption` in `poll-ended`, and the client's `correctOptions`, are left out. The field is not in the poll schema, so its value is undefined.
- Socket.io fan-out, connection and disconnection are not modelled. Broadcasts are appended to one event log. The `get-current-poll` reply goes to one socket, so it is the handler's return value.
- Wall-clock `setInterval` is not modelled. Each firing of an interval is an explicit `Tick` step, and any interleaving of steps is allowed.
- Interleaving inside an async handler is not modelled, for example between `findById` and `save`. Each handler is one atomic step. At-most-one-active-poll and one-answer-per-student hold only under that choice. `answerSchema` has no unique index on (pollId, studentId), so two concurrent `submit-answer` calls from one student can both pass `findOne` and both save (backend/app.js:135-138). Two concurrent create-polls can both run `deleteMany` before either saves, leaving two active polls (backend/app.js:71-73).
- A `timeLimit` that is not an integer is not modelled. Time limits are integers. In the source, a non-numeric string fails the schema's `Number` cast, so the save throws after the active polls were deleted and no interval starts. `null` and `""` are stored as `null`, and `null--` is -1, so that interval ends on its first tick. Only a missing `timeLimit` gives `NaN` and an interval that never clears.
- Non-integer `selectedOption` values are not modelled. Selections are integers.
- React rendering, axios calls, `parseInt` input parsing, role selection and the `error` state of the teacher form are left out. `ValidatePoll` returns the message the form would show, not the whole component state.
- The client's request failures ("Error creating user", "Error creating poll") and its registration-then-create sequence are left out. `PollRequest.registerFirst` says whether that sequence starts with registration.
- Timer.Step: counts are exact integers. The source's `remaining` is a JavaScript double, which matches them only below 2^53. From 2^54 up, `remaining--` leaves the value unchanged, so the source emits the same count every second and never clears the interval. The model counts down and expires after n ticks.
- ClientForms.UpdateOption: rows are values. In the source, `[...options]` is a shallow copy, so `newOptions[index][field] = value` also mutates the row object the previous state and a pending `handleTeacherCreatePoll` share. That aliasing shows only under the async interleaving left out above.

=== FILE: client_forms.dfy ===
/**
  The client's input checks: the name check of `createUser`, the teacher's
  option editor `updateOption`, and the validation `handleTeacherCreatePoll`
  runs before it sends anything to the server.
 */
module ClientForms {

  import opened Wrappers
  import opened Text
  import opened Schema

  const NameRequired := "Name is required"
  const QuestionRequired := "Question is required"
  const TwoOptionsRequired := "At least 2 options are required"
  const TimeLimitPositive := "Time limit must be positive"

  // ------------------------------------------------------------ create-user

  /** The body of `POST /api/create-user`: the name as typed, untrimmed. */
  datatype UserRequest = UserRequest(name: string, role: Role)

  /** `createUser`: a blank name is refused; otherwise the name is sent as typed. */
  function CheckUser(name: string, role: Role): (r: Result<UserRequest, string>)
    ensures r.Err? <==> forall i :: 0 <= i < |name| ==> IsWhitespace(name[i])
    ensures r.Err? ==> r.error == NameRequired
    ensures r.Ok? ==> r.value.name == name && r.value.role == role && |name| > 0
  {
    BlankIffAllWhitespace(name);
    if IsBlank(name) then Err(NameRequired) else Ok(UserRequest(name, role))
  }

  // ---------------------------------------------------------- option editor

  /** One row of the teacher's option editor. */
  datatype FormOption = FormOption(content: string, isCorrect: bool)

  /** The `(field, value)` pair of `updateOption`: a new content, or a new correctness flag. */
  datatype OptionEdit = SetContent(content: string) | SetCorrect(isCorrect: bool)

  /** The field of `option` that `edit` writes, with its current value. */
  function CurrentValue(option: FormOption, edit: OptionEdit): OptionEdit {
    match edit
    case SetContent(_) => SetContent(option.content)
    case SetCorrect(_) => SetCorrect(option.isCorrect)
  }

  /** `updateOption(index, field, value)`: writes one field of one row. */
  function UpdateOption(options: seq<FormOption>, index: nat, edit: OptionEdit): (r: seq<FormOption>)
    requires index < |options|
    ensures |r| == |options|
    ensures forall j :: 0 <= j < |options| && j != index ==> r[j] == options[j]
    ensures edit.SetContent? ==> r[index].content == edit.content && r[index].isCorrect == options[index].isCorrect
    ensures edit.SetCorrect? ==> r[index].isCorrect == edit.isCorrect && r[index].content == options[index].content
  {
    match edit
    case SetContent(c) => options[index := options[index].(content := c)]
    case SetCorrect(b) => options[index := options[index].(isCorrect := b)]
  }

  /** Writing back the value a field had before undoes an edit. */
  lemma UpdateOptionUndo(options: seq<FormOption>, index: nat, edit: OptionEdit)
    requires index < |options|
    ensures UpdateOption(UpdateOption(options, index, edit), index, CurrentValue(options[index], edit)) == options
  {
    var r := UpdateOption(UpdateOption(options, index, edit), index, CurrentValue(options[index], edit));
    assert forall j :: 0 <= j < |options| ==> r[j] == options[j];
  }

  // ------------------------------------------------------- teacher's poll form

  /** The teacher's form. `isUserCreated` is set once the teacher is registered. */
  datatype TeacherForm = TeacherForm(
    isUserCreated: bool,
    name: string,
    question: string,
    options: seq<FormOption>,
    timeLimit: int)

  /** `xs.filter(keep)`: the elements `keep` accepts, in their order. */
  function Filter<T>(xs: seq<T>, keep: T -> bool): (r: seq<T>)
    ensures |r| <= |xs|
  {
    if |xs| == 0 then []
    else (if keep(xs[0]) then [xs[0]] else []) + Filter(xs[1..], keep)
  }

  /** Filtering keeps exactly the accepted elements. */
  lemma {:induction false} FilterMembers<T>(xs: seq<T>, keep: T -> bool)
    ensures forall x :: x in Filter(xs, keep) <==> x in xs && keep(x)
  {
    if |xs| > 0 {
      FilterMembers(xs[1..], keep);
      assert xs == [xs[0]] + xs[1..];
    }
  }

  /** Filtering distributes over concatenation: it keeps order and decides element by element. */
  lemma {:induction false} FilterConcat<T>(a: seq<T>, b: seq<T>, keep: T -> bool)
    ensures Filter(a + b, keep) == Filter(a, keep) + Filter(b, keep)
  {
    if |a| == 0 {
      assert a + b == b;
    } else {
      var head := if keep(a[0]) then [a[0]] else [];
      calc {
        Filter(a + b, keep);
      == { assert (a + b)[0] == a[0]; assert (a + b)[1..] == a[1..] + b; }
        head + Filter(a[1..] + b, keep);
      == { FilterConcat(a[1..], b, keep); }
        head + (Filter(a[1..], keep) + Filter(b, keep));
      == { assert head + (Filter(a[1..], keep) + Filter(b, keep)) == (head + Filter(a[1..], keep)) + Filter(b, keep); }
        Filter(a, keep) + Filter(b, keep);
      }
    }
  }

  /** Filtering keeps a sequence whose elements are all accepted. */
  lemma {:induction false} FilterKeepsAccepted<T>(xs: seq<T>, keep: T -> bool)
    requires forall i :: 0 <= i < |xs| ==> keep(xs[i])
    ensures Filter(xs, keep) == xs
  {
    if |xs| > 0 {
      FilterKeepsAccepted(xs[1..], keep);
    }
  }

  /** A row whose trimmed content is non-empty. */
  predicate IsFilled(o: FormOption) {
    !IsBlank(o.content)
  }

  /** `options.filter((opt) => opt.content.trim() !== "")`. */
  function NonBlankOptions(options: seq<FormOption>): (r: seq<FormOption>)
    ensures |r| <= |options|
    ensures forall o :: o in r <==> o in options && !IsBlank(o.content)
  {
    FilterMembers(options, IsFilled);
    Filter(options, IsFilled)
  }

  /** `filteredOptions.map(({ content, isCorrect }) => ({ content, isCorrect }))`. */
  function Project(options: seq<FormOption>): (r: seq<PollOption>)
    ensures |r| == |options|
    ensures forall i :: 0 <= i < |options| ==> r[i].content == options[i].content && r[i].isCorrect == options[i].isCorrect
  {
    seq(|options|, i requires 0 <= i < |options| => PollOption(options[i].content, options[i].isCorrect))
  }

  /**
    What the client sends once the form passes: it registers the teacher first
    when `registerFirst`, then posts the poll with the untrimmed question.
   */
  datatype PollRequest = PollRequest(
    registerFirst: bool,
    name: string,
    question: string,
    options: seq<PollOption>,
    timeLimit: int)

  predicate NameMissing(f: TeacherForm) {
    !f.isUserCreated && IsBlank(f.name)
  }

  /**
    `handleTeacherCreatePoll`'s checks, in order, stopping at the first that
    fails: the name (only while the teacher is not registered), a non-blank
    question, at least two non-blank options, a positive time limit.
   */
  function ValidatePoll(f: TeacherForm): (r: Result<PollRequest, string>)
    ensures r == Err(NameRequired) <==> NameMissing(f)
    ensures r == Err(QuestionRequired) <==> !NameMissing(f) && IsBlank(f.question)
    ensures r == Err(TwoOptionsRequired) <==>
              !NameMissing(f) && !IsBlank(f.question) && |NonBlankOptions(f.options)| < 2
    ensures r == Err(TimeLimitPositive) <==>
              !NameMissing(f) && !IsBlank(f.question) && |NonBlankOptions(f.options)| >= 2 && f.timeLimit <= 0
    ensures r.Ok? <==>
              !NameMissing(f) && !IsBlank(f.question) && |NonBlankOptions(f.options)| >= 2 && f.timeLimit > 0
    ensures r.Ok? ==>
              && r.value.registerFirst == !f.isUserCreated
              && r.value.name == f.name && r.value.question == f.question && r.value.timeLimit == f.timeLimit
              && r.value.options == Project(NonBlankOptions(f.options))
  {
    if NameMissing(f) then Err(NameRequired)
    else
      var filtered := NonBlankOptions(f.options);
      if IsBlank(f.question) then Err(QuestionRequired)
      else if |filtered| < 2 then Err(TwoOptionsRequired)
      else if f.timeLimit <= 0 then Err(TimeLimitPositive)
      else Ok(PollRequest(!f.isUserCreated, f.name, f.question, Project(filtered), f.timeLimit))
  }

  /**
    A poll that passes the form has at least two options, each with a
    non-blank content, in the order they were typed; so the server's schema
    never refuses it for an empty option.
   */
  lemma ValidPollOptions(f: TeacherForm)
    ensures ValidatePoll(f).Ok? ==>
              var opts := ValidatePoll(f).value.options;
              && |opts| >= 2
              && (forall i :: 0 <= i < |opts| ==> !IsBlank(opts[i].content) && opts[i].content != "")
  {
    var filtered := NonBlankOptions(f.options);
    FilterMembers(f.options, IsFilled);
    if ValidatePoll(f).Ok? {
      var opts := ValidatePoll(f).value.options;
      forall i | 0 <= i < |opts|
        ensures !IsBlank(opts[i].content) && opts[i].content != ""
      {
        assert filtered[i] in filtered;
        assert IsBlank("");
      }
    }
  }

  /** The form as `handleTeacherCreatePoll` leaves it after the poll is created. */
  function ClearedForm(f: TeacherForm): TeacherForm {
    var blank := FormOption("", false);
    TeacherForm(true, f.name, "", [blank, blank, blank, blank], 0)
  }

  /** Pressing "Start Poll" again on the cleared form is refused for the missing question. */
  lemma ClearedFormIsRefused(f: TeacherForm)
    ensures ValidatePoll(ClearedForm(f)) == Err(QuestionRequired)
  {
    assert IsBlank("");
  }
}

=== FILE: client_view.dfy ===
/**
  The client's poll view: how the socket events update `currentPoll`,
  `remainingTime`, `results` and `showResults`, when the option and submit
  buttons are disabled, and the guard of `handleStudentAnswer`.
 */
module ClientView {

  import opened Wrappers
  import opened Schema

  const SubmitFailed := "Unable to submit answer"

  /** The part of the client's state the poll view reads and writes. */
  datatype View = View(
    currentPoll: Option<PublicPoll>,
    selectedOption: Option<int>,
    remainingTime: int,
    results: seq<real>,
    showResults: bool,
    userId: Option<Id>,
    error: string)

  /** The initial `useState` values. */
  function Init(): View {
    View(None, None, 0, [], false, None, "")
  }

  /**
    The `new-poll`, `timer-update` and `poll-ended` handlers. `poll-ended` is
    applied whichever poll it came from, and `new-poll` keeps an earlier
    selection and the old results.
   */
  function Receive(v: View, e: Event): (r: View)
    ensures r.selectedOption == v.selectedOption && r.userId == v.userId && r.error == v.error
    ensures e.NewPoll? ==>
              && r.currentPoll == Some(e.poll) && r.remainingTime == e.poll.timeLimit
              && !r.showResults && r.results == v.results
    ensures e.TimerUpdate? ==>
              && r.remainingTime == e.remaining
              && r.currentPoll == v.currentPoll && r.showResults == v.showResults && r.results == v.results
    ensures e.PollEnded? ==>
              && r.results == e.results && r.showResults
              && r.currentPoll == v.currentPoll && r.remainingTime == v.remainingTime
  {
    match e
    case NewPoll(poll) => v.(currentPoll := Some(poll), remainingTime := poll.timeLimit, showResults := false)
    case TimerUpdate(remaining) => v.(remainingTime := remaining)
    case PollEnded(results) => v.(results := results, showResults := true)
  }

  /** The view after receiving `events` in order. */
  function ReceiveAll(v: View, events: seq<Event>): View
    decreases |events|
  {
    if |events| == 0 then v else Receive(ReceiveAll(v, events[..|events| - 1]), events[|events| - 1])
  }

  /** The results are shown when some `poll-ended` came after the last `new-poll`, or when they were shown and no `new-poll` came. */
  predicate EndedSinceLastPoll(v: View, events: seq<Event>) {
    || (exists j :: 0 <= j < |events| && events[j].PollEnded? && forall k :: j < k < |events| ==> !events[k].NewPoll?)
    || (v.showResults && forall k :: 0 <= k < |events| ==> !events[k].NewPoll?)
  }

  lemma {:induction false} ShowResultsIff(v: View, events: seq<Event>)
    ensures ReceiveAll(v, events).showResults <==> EndedSinceLastPoll(v, events)
    decreases |events|
  {
    if |events| > 0 {
      var init := events[..|events| - 1];
      var e := events[|events| - 1];
      ShowResultsIff(v, init);
      assert forall k :: 0 <= k < |init| ==> init[k] == events[k];
      if e.PollEnded? {
        assert events[|events| - 1].PollEnded?;
      } else if e.NewPoll? {
        assert !EndedSinceLastPoll(v, events);
      } else {
        if EndedSinceLastPoll(v, events) {
          if exists j :: 0 <= j < |events| && events[j].PollEnded? && forall k :: j < k < |events| ==> !events[k].NewPoll? {
            var j :| 0 <= j < |events| && events[j].PollEnded? && forall k :: j < k < |events| ==> !events[k].NewPoll?;
            assert j < |init|;
            assert init[j].PollEnded? && forall k :: j < k < |init| ==> !init[k].NewPoll?;
          }
        }
      }
    }
  }

  /**
    A client that just loaded shows results only once a `poll-ended` has
    arrived with no `new-poll` after it.
   */
  lemma FreshViewShowsResultsIff(events: seq<Event>)
    ensures ReceiveAll(Init(), events).showResults <==>
              exists j :: 0 <= j < |events| && events[j].PollEnded? && forall k :: j < k < |events| ==> !events[k].NewPoll?
  {
    ShowResultsIff(Init(), events);
  }

  // --------------------------------------------------------------- buttons

  /** The option buttons: `remainingTime <= 0 || showResults`. */
  function OptionsDisabled(v: View): (r: bool)
    ensures v.showResults ==> r
    ensures !v.showResults ==> (r <==> v.remainingTime <= 0)
  {
    v.remainingTime <= 0 || v.showResults
  }

  /** The submit button: additionally disabled while nothing is selected. */
  function SubmitDisabled(v: View): (r: bool)
    ensures OptionsDisabled(v) ==> r
    ensures !OptionsDisabled(v) ==> (r <==> v.selectedOption.None?)
  {
    v.selectedOption.None? || OptionsDisabled(v)
  }

  /** Clicking option `index`: a disabled button does nothing. */
  function ClickOption(v: View, index: int): (r: View)
    ensures OptionsDisabled(v) ==> r == v
    ensures !OptionsDisabled(v) ==> r == v.(selectedOption := Some(index))
    ensures SubmitDisabled(r) <==> OptionsDisabled(v)
    ensures OptionsDisabled(r) == OptionsDisabled(v)
  {
    if OptionsDisabled(v) then v else v.(selectedOption := Some(index))
  }

  /** Once results arrive nothing can be selected or submitted; a `new-poll` with time on it re-enables the options. */
  lemma ButtonsFollowEvents(v: View, e: Event)
    ensures e.PollEnded? ==> OptionsDisabled(Receive(v, e)) && SubmitDisabled(Receive(v, e))
    ensures e.TimerUpdate? && e.remaining <= 0 ==> SubmitDisabled(Receive(v, e))
    ensures e.NewPoll? ==> (OptionsDisabled(Receive(v, e)) <==> e.poll.timeLimit <= 0)
  {
  }

  // ---------------------------------------------------------------- submit

  /** The `submit-answer` payload. */
  datatype AnswerMessage = AnswerMessage(pollId: Id, studentId: Id, selectedOption: int)

  /**
    `handleStudentAnswer`: with a poll, a selection and a user id it emits the
    answer and clears the selection; otherwise it only sets the error.
   */
  function SendAnswer(v: View): (r: (View, Option<AnswerMessage>))
    ensures r.1.Some? <==> v.currentPoll.Some? && v.selectedOption.Some? && v.userId.Some?
    ensures r.1.Some? ==>
              && r.1.value.pollId == v.currentPoll.value.id
              && r.1.value.studentId == v.userId.value
              && r.1.value.selectedOption == v.selectedOption.value
              && r.0.selectedOption.None?
              && r.0 == v.(selectedOption := None)
    ensures r.1.None? ==> r.0 == v.(error := SubmitFailed)
  {
    if v.currentPoll.Some? && v.selectedOption.Some? && v.userId.Some? then
      (v.(selectedOption := None), Some(AnswerMessage(v.currentPoll.value.id, v.userId.value, v.selectedOption.value)))
    else
      (v.(error := SubmitFailed), None)
  }

  /** Clicking Submit: a disabled button does nothing, an enabled one runs `handleStudentAnswer`. */
  function ClickSubmit(v: View): (r: (View, Option<AnswerMessage>))
    ensures r.1.Some? ==> v.remainingTime > 0 && !v.showResults && v.selectedOption.Some?
    ensures SubmitDisabled(v) ==> r == (v, None)
    ensures !SubmitDisabled(v) ==> r == SendAnswer(v)
    ensures !SubmitDisabled(v) && v.currentPoll.Some? && v.userId.Some? ==> r.1.Some?
  {
    if SubmitDisabled(v) then (v, None) else SendAnswer(v)
  }

  /** A second click right after a submission is refused: the selection was cleared. */
  lemma NoDoubleSubmit(v: View)
    requires SendAnswer(v).1.Some?
    ensures SendAnswer(SendAnswer(v).0).1.None?
    ensures ClickSubmit(SendAnswer(v).0).1.None?
  {
  }
}

=== FILE: results.dfy ===
/**
  `calculateResults`: the percentage of a poll's answers that chose each
  option. The total counts every answer stored for the poll, while an option's
  bucket only counts answers whose `selectedOption` equals that option's index,
  so out-of-range selections weigh in the total and in no bucket.
 */
module Results {

  import opened Schema

  /** The number of answers for `pollId` that selected `option`. */
  function CountFor(answers: seq<Answer>, pollId: Id, option: int): (r: nat)
    ensures r <= |answers|
  {
    if |answers| == 0 then 0
    else
      var last := answers[|answers| - 1];
      CountFor(answers[..|answers| - 1], pollId, option)
        + (if last.pollId == pollId && last.selectedOption == option then 1 else 0)
  }

  /** `Answer.countDocuments({ pollId })`. */
  function TotalFor(answers: seq<Answer>, pollId: Id): (r: nat)
    ensures r <= |answers|
  {
    if |answers| == 0 then 0
    else
      TotalFor(answers[..|answers| - 1], pollId) + (if answers[|answers| - 1].pollId == pollId then 1 else 0)
  }

  /** The total is 0 exactly when no stored answer belongs to the poll, the case that yields all zeros. */
  lemma {:induction false} TotalZeroIff(answers: seq<Answer>, pollId: Id)
    ensures TotalFor(answers, pollId) == 0 <==> forall j :: 0 <= j < |answers| ==> answers[j].pollId != pollId
  {
    if |answers| > 0 {
      var init := answers[..|answers| - 1];
      TotalZeroIff(init, pollId);
      assert forall j :: 0 <= j < |init| ==> init[j] == answers[j];
    }
  }

  /** The number of answers for `pollId` whose selection indexes one of `n` options. */
  function InRangeFor(answers: seq<Answer>, pollId: Id, n: nat): nat {
    if |answers| == 0 then 0
    else
      var last := answers[|answers| - 1];
      InRangeFor(answers[..|answers| - 1], pollId, n)
        + (if last.pollId == pollId && 0 <= last.selectedOption < n then 1 else 0)
  }

  /** The sum of the buckets of options `0 .. n-1`. */
  function SumCounts(answers: seq<Answer>, pollId: Id, n: nat): nat {
    if n == 0 then 0 else SumCounts(answers, pollId, n - 1) + CountFor(answers, pollId, n - 1)
  }

  /** The answers that belong to `pollId`, in order. */
  function OnlyPoll(answers: seq<Answer>, pollId: Id): (r: seq<Answer>)
    ensures forall a :: a in r <==> a in answers && a.pollId == pollId
  {
    if |answers| == 0 then []
    else
      var last := answers[|answers| - 1];
      OnlyPoll(answers[..|answers| - 1], pollId) + (if last.pollId == pollId then [last] else [])
  }

  /**
    The results vector of a poll with `optionCount` options: all zeros when the
    poll has no answers, otherwise each bucket as a percentage of the total.
    The exact ratio is kept; the source's two-decimal rounding is not modelled.
   */
  function CalculateResults(answers: seq<Answer>, pollId: Id, optionCount: nat): (r: seq<real>)
    ensures |r| == optionCount
  {
    var total := TotalFor(answers, pollId);
    if total == 0 then seq(optionCount, i => 0.0)
    else seq(optionCount, i => Percent(CountFor(answers, pollId, i), total))
  }

  /** `count / total * 100`, as an exact ratio. */
  function Percent(count: nat, total: nat): (r: real)
    requires total > 0
    ensures r >= 0.0
    ensures count == 0 ==> r == 0.0
    ensures count == total ==> r == 100.0
  {
    var x := (count as real) * 100.0;
    var y := total as real;
    assert x >= 0.0 && y > 0.0;
    assert x / y >= 0.0 by { assert (x / y) * y == x; }
    assert count == total ==> x / y == 100.0 by {
      if count == total { assert x == 100.0 * y; }
    }
    x / y
  }

  /** A bucket never exceeds the total. */
  lemma {:induction false} CountAtMostTotal(answers: seq<Answer>, pollId: Id, option: int)
    ensures CountFor(answers, pollId, option) <= TotalFor(answers, pollId)
  {
    if |answers| > 0 {
      CountAtMostTotal(answers[..|answers| - 1], pollId, option);
    }
  }

  /** A share `c` of `t` answers, as a percentage. */
  lemma PercentOfTotal(c: nat, t: nat)
    requires 0 < t && c <= t
    ensures 0.0 <= Percent(c, t) <= 100.0
    ensures Percent(c, t) * (t as real) == (c as real) * 100.0
  {
    var x := (c as real) * 100.0;
    var y := t as real;
    assert x <= y * 100.0;
    assert x / y <= 100.0 by {
      assert (x / y) * y == x;
    }
  }

  /** Entry `i` of the results: 0 without answers, otherwise the percentage of the total that chose option `i`, within [0, 100]. */
  lemma ResultEntry(answers: seq<Answer>, pollId: Id, optionCount: nat, i: nat)
    requires i < optionCount
    ensures TotalFor(answers, pollId) == 0 ==> CalculateResults(answers, pollId, optionCount)[i] == 0.0
    ensures TotalFor(answers, pollId) > 0 ==>
              CalculateResults(answers, pollId, optionCount)[i] == Percent(CountFor(answers, pollId, i), TotalFor(answers, pollId))
    ensures 0.0 <= CalculateResults(answers, pollId, optionCount)[i] <= 100.0
  {
    var total := TotalFor(answers, pollId);
    var r := CalculateResults(answers, pollId, optionCount);
    if total > 0 {
      var c := CountFor(answers, pollId, i);
      assert r[i] == Percent(c, total);
      CountAtMostTotal(answers, pollId, i);
      PercentOfTotal(c, total);
    } else {
      assert r[i] == 0.0;
    }
  }

  /** The whole vector: one entry per option, all 0 without answers, each a percentage otherwise. */
  lemma ResultsShape(answers: seq<Answer>, pollId: Id, optionCount: nat)
    ensures |CalculateResults(answers, pollId, optionCount)| == optionCount
    ensures TotalFor(answers, pollId) == 0 ==>
              forall i :: 0 <= i < optionCount ==> CalculateResults(answers, pollId, optionCount)[i] == 0.0
    ensures forall i :: 0 <= i < optionCount ==> 0.0 <= CalculateResults(answers, pollId, optionCount)[i] <= 100.0
  {
    forall i | 0 <= i < optionCount
      ensures TotalFor(answers, pollId) == 0 ==> CalculateResults(answers, pollId, optionCount)[i] == 0.0
      ensures 0.0 <= CalculateResults(answers, pollId, optionCount)[i] <= 100.0
    {
      ResultEntry(answers, pollId, optionCount, i);
    }
  }

  /** Answers to other polls do not affect a poll's counts or total. */
  lemma {:induction false} OnlyPollCounts(answers: seq<Answer>, pollId: Id, option: int)
    ensures CountFor(OnlyPoll(answers, pollId), pollId, option) == CountFor(answers, pollId, option)
    ensures TotalFor(OnlyPoll(answers, pollId), pollId) == TotalFor(answers, pollId)
    ensures TotalFor(OnlyPoll(answers, pollId), pollId) == |OnlyPoll(answers, pollId)|
  {
    if |answers| > 0 {
      var init := answers[..|answers| - 1];
      var last := answers[|answers| - 1];
      OnlyPollCounts(init, pollId, option);
      var f := OnlyPoll(init, pollId);
      if last.pollId == pollId {
        assert OnlyPoll(answers, pollId) == f + [last];
        assert (f + [last])[..|f|] == f;
      } else {
        assert OnlyPoll(answers, pollId) == f;
      }
    }
  }

  /** Only the answers carrying the poll's id are counted in its results. */
  lemma OnlyPollResults(answers: seq<Answer>, pollId: Id, optionCount: nat)
    ensures CalculateResults(OnlyPoll(answers, pollId), pollId, optionCount)
         == CalculateResults(answers, pollId, optionCount)
  {
    forall i | 0 <= i < optionCount {
      OnlyPollCounts(answers, pollId, i);
    }
    OnlyPollCounts(answers, pollId, 0);
  }

  /** Adding one more option adds that option's bucket to the in-range count. */
  lemma {:induction false} InRangeStep(answers: seq<Answer>, pollId: Id, n: nat)
    ensures InRangeFor(answers, pollId, n + 1) == InRangeFor(answers, pollId, n) + CountFor(answers, pollId, n)
  {
    if |answers| > 0 {
      InRangeStep(answers[..|answers| - 1], pollId, n);
    }
  }

  /** The buckets add up to the number of in-range answers. */
  lemma {:induction false} SumCountsIsInRange(answers: seq<Answer>, pollId: Id, n: nat)
    ensures SumCounts(answers, pollId, n) == InRangeFor(answers, pollId, n)
  {
    if n == 0 {
      InRangeZero(answers, pollId);
    } else {
      SumCountsIsInRange(answers, pollId, n - 1);
      InRangeStep(answers, pollId, n - 1);
    }
  }

  lemma {:induction false} InRangeZero(answers: seq<Answer>, pollId: Id)
    ensures InRangeFor(answers, pollId, 0) == 0
  {
    if |answers| > 0 {
      InRangeZero(answers[..|answers| - 1], pollId);
    }
  }

  /** In-range answers are a part of all answers, and all of them exactly when every selection is in range. */
  lemma {:induction false} InRangeVersusTotal(answers: seq<Answer>, pollId: Id, n: nat)
    ensures InRangeFor(answers, pollId, n) <= TotalFor(answers, pollId)
    ensures InRangeFor(answers, pollId, n) == TotalFor(answers, pollId)
        <==> forall j :: 0 <= j < |answers| && answers[j].pollId == pollId ==> 0 <= answers[j].selectedOption < n
  {
    if |answers| > 0 {
      var init := answers[..|answers| - 1];
      InRangeVersusTotal(init, pollId, n);
      assert forall j :: 0 <= j < |init| ==> init[j] == answers[j];
    }
  }

  /**
    The buckets of a poll's options add up to at most its total, and to exactly
    the total when no stored answer selected an index outside the options.
   */
  lemma CountsSumAtMostTotal(answers: seq<Answer>, pollId: Id, n: nat)
    ensures SumCounts(answers, pollId, n) <= TotalFor(answers, pollId)
    ensures SumCounts(answers, pollId, n) == TotalFor(answers, pollId)
        <==> forall j :: 0 <= j < |answers| && answers[j].pollId == pollId ==> 0 <= answers[j].selectedOption < n
  {
    SumCountsIsInRange(answers, pollId, n);
    InRangeVersusTotal(answers, pollId, n);
  }

  /**
    The loop the database aggregation performs: one pass over the answers,
    counting the poll's total and grouping its selections by option index.
   */
  method Aggregate(answers: seq<Answer>, pollId: Id, optionCount: nat) returns (total: nat, counts: seq<nat>)
    ensures total == TotalFor(answers, pollId)
    ensures |counts| == optionCount
    ensures forall i :: 0 <= i < optionCount ==> counts[i] == CountFor(answers, pollId, i)
  {
    total := 0;
    counts := seq(optionCount, i => 0);
    var k := 0;
    while k < |answers|
      invariant 0 <= k <= |answers|
      invariant total == TotalFor(answers[..k], pollId)
      invariant |counts| == optionCount
      invariant forall i :: 0 <= i < optionCount ==> counts[i] == CountFor(answers[..k], pollId, i)
    {
      var a := answers[k];
      assert answers[..k + 1][..k] == answers[..k];
      if a.pollId == pollId {
        total := total + 1;
        if 0 <= a.selectedOption < optionCount {
          counts := counts[a.selectedOption := counts[a.selectedOption] + 1];
        }
      }
      k := k + 1;
    }
    assert answers[..k] == answers;
  }

  /** Results computed from the aggregation pass agree with `CalculateResults`. */
  method ResultsByAggregation(answers: seq<Answer>, pollId: Id, optionCount: nat) returns (r: seq<real>)
    ensures r == CalculateResults(answers, pollId, optionCount)
  {
    var total, counts := Aggregate(answers, pollId, optionCount);
    if total == 0 {
      r := seq(optionCount, i => 0.0);
    } else {
      r := seq(optionCount, i requires 0 <= i < optionCount => Percent(counts[i], total));
    }
  }
}

=== FILE: scenarios.dfy ===
/**
  Client and server together: what the client's checks guarantee the server
  will accept, and a complete classroom session.
 */
module Scenarios {

  import opened Schema
  import opened PollServer
  import ClientForms
  import Results

  /** A name that passes the client's check is registered by the server. */
  lemma CheckedUserIsRegistered(s: Server, name: string, role: Role)
    ensures ClientForms.CheckUser(name, role).Ok? ==> CreateUser(s, name, RoleTag(role)).1.Ok?
  {
  }

  /** A registered teacher's poll that passes the client's form is created by the server. */
  lemma CheckedPollIsCreated(s: Server, f: ClientForms.TeacherForm, createdBy: Id)
    ensures ClientForms.ValidatePoll(f).Ok? && IsTeacher(s.users, createdBy) ==>
              var req := ClientForms.ValidatePoll(f).value;
              CreatePoll(s, req.question, req.options, req.timeLimit, createdBy).1.Ok?
  {
    ClientForms.ValidPollOptions(f);
  }

  // The classroom session below, stage by stage.
  const Question: string := "2+2?"
  const Options: seq<PollOption> := [PollOption("3", false), PollOption("4", true)]
  const Open: Poll := Poll(1, Question, Options, 2, true, 0)
  const Announced: Event := NewPoll(PublicPoll(1, Question, [PublicOption("3"), PublicOption("4")], 2, true, 0))
  const Opened: Server := Server([User(0, "P", Teacher)], [Open], [], map[1 := 2], 2, [Announced])
  const Answered: Server := Opened.(answers := [Answer(1, 10, 1), Answer(1, 11, 0)])

  /** The teacher registers and opens the poll: it is stored, timed and broadcast without its answer key. */
  lemma ClassroomOpens()
    ensures CreatePoll(CreateUser(Init(), "P", "teacher").0, Question, Options, 2, 0).0 == Opened
  {
    var s1 := CreateUser(Init(), "P", "teacher").0;
    assert s1.users == [User(0, "P", Teacher)];
    assert Sanitize(Open).options == [PublicOption("3"), PublicOption("4")];
  }

  /** Students 10 and 11 answer; student 10's second answer is ignored. */
  lemma ClassroomAnswers()
    ensures SubmitAnswer(SubmitAnswer(SubmitAnswer(Opened, 1, 10, 1), 1, 11, 0), 1, 10, 0) == Answered
  {
    var a := SubmitAnswer(Opened, 1, 10, 1);
    assert a.answers == [Answer(1, 10, 1)];
    var b := SubmitAnswer(a, 1, 11, 0);
    assert b.answers == [Answer(1, 10, 1), Answer(1, 11, 0)];
  }

  /** One answer per option gives 50% each. */
  lemma ClassroomResults()
    ensures Results.CalculateResults(Answered.answers, 1, 2) == [50.0, 50.0]
  {
    var answers := Answered.answers;
    assert answers[..1] == [Answer(1, 10, 1)];
    assert answers[..1][..0] == [];
    assert Results.TotalFor(answers[..1], 1) == 1;
    assert Results.TotalFor(answers, 1) == 2;
    assert Results.CountFor(answers[..1], 1, 0) == 0;
    assert Results.CountFor(answers, 1, 0) == 1;
    assert Results.CountFor(answers[..1], 1, 1) == 1;
    assert Results.CountFor(answers, 1, 1) == 1;
  }

  /** Two ticks of the two-second limit: 1, then 0, then the poll closes with its results. */
  lemma ClassroomEnds()
    ensures Tick(Tick(Answered, 1), 1)
         == Answered.(polls := [Open.(active := false)], timers := map[],
                      log := [Announced, TimerUpdate(1), TimerUpdate(0), PollEnded([50.0, 50.0])])
  {
    var t1 := Tick(Answered, 1);
    assert t1 == Answered.(timers := map[1 := 1], log := [Announced, TimerUpdate(1)]);
    ClassroomResults();
    assert SetInactive(Answered.polls, 1) == [Open.(active := false)];
    assert t1.timers - {1} == map[];
  }

  /**
    A teacher asks "2+2?" with options "3" and "4" (the correct one) and a
    two-second limit; student 10 picks "4", student 11 picks "3", and student
    10's second answer is ignored. After two ticks the poll is inactive and
    the results are 50% and 50%.
   */
  lemma Classroom()
    ensures var s1 := CreateUser(Init(), "P", "teacher").0;
            var s2 := CreatePoll(s1, "2+2?", [PollOption("3", false), PollOption("4", true)], 2, 0).0;
            var s3 := SubmitAnswer(SubmitAnswer(SubmitAnswer(s2, 1, 10, 1), 1, 11, 0), 1, 10, 0);
            var s4 := Tick(Tick(s3, 1), 1);
            && s3.answers == [Answer(1, 10, 1), Answer(1, 11, 0)]
            && s4.log == [NewPoll(PublicPoll(1, "2+2?", [PublicOption("3"), PublicOption("4")], 2, true, 0)),
                          TimerUpdate(1), TimerUpdate(0), PollEnded([50.0, 50.0])]
            && s4.polls == [Poll(1, "2+2?", [PollOption("3", false), PollOption("4", true)], 2, false, 0)]
  {
    ClassroomOpens();
    ClassroomAnswers();
    ClassroomEnds();
  }

  /** Three answers for option 0 and one for option 1 give 75%, 25% and 0%; no answers give all zeros. */
  lemma AggregationExample()
    ensures Results.CalculateResults([Answer(7, 1, 0), Answer(7, 2, 0), Answer(7, 3, 0), Answer(7, 4, 1)], 7, 3)
         == [75.0, 25.0, 0.0]
    ensures Results.CalculateResults([], 7, 3) == [0.0, 0.0, 0.0]
  {
    var a1 := [Answer(7, 1, 0)];
    var a2 := a1 + [Answer(7, 2, 0)];
    var a3 := a2 + [Answer(7, 3, 0)];
    var a4 := a3 + [Answer(7, 4, 1)];
    assert a1[..0] == [] && a2[..1] == a1 && a3[..2] == a2 && a4[..3] == a3;
    assert Results.TotalFor(a1, 7) == 1 && Results.TotalFor(a2, 7) == 2 && Results.TotalFor(a3, 7) == 3;
    assert Results.TotalFor(a4, 7) == 4;
    assert Results.CountFor(a1, 7, 0) == 1 && Results.CountFor(a1, 7, 1) == 0 && Results.CountFor(a1, 7, 2) == 0;
    assert Results.CountFor(a2, 7, 0) == 2 && Results.CountFor(a2, 7, 1) == 0 && Results.CountFor(a2, 7, 2) == 0;
    assert Results.CountFor(a3, 7, 0) == 3 && Results.CountFor(a4, 7, 0) == 3;
    assert Results.CountFor(a3, 7, 1) == 0 && Results.CountFor(a4, 7, 1) == 1;
    assert Results.CountFor(a3, 7, 2) == 0 && Results.CountFor(a4, 7, 2) == 0;
    assert a4 == [Answer(7, 1, 0), Answer(7, 2, 0), Answer(7, 3, 0), Answer(7, 4, 1)];
  }
}

=== FILE: schema.dfy ===
/**
  The documents of the poll server (users, polls with their options, answers),
  the sanitised poll that is broadcast to students, and the events the server
  emits over its socket.
 */
module Schema {

  import opened Wrappers

  /** A document id. The store hands out fresh ids from one increasing counter. */
  type Id = nat

  /** The user schema's role enumeration. */
  datatype Role = Student | Teacher

  /** The string a role is stored and queried as. */
  function RoleTag(r: Role): string {
    match r
    case Student => "student"
    case Teacher => "teacher"
  }

  /** Reads a role string; anything outside the enumeration fails schema validation. */
  function ParseRole(tag: string): (r: Option<Role>)
    ensures r.Some? <==> tag == "student" || tag == "teacher"
    ensures r.Some? ==> RoleTag(r.value) == tag
  {
    if tag == "student" then Some(Student)
    else if tag == "teacher" then Some(Teacher)
    else None
  }

  datatype User = User(id: Id, name: string, role: Role)

  /** One answer choice of a poll; `isCorrect` is the teacher's answer key. */
  datatype PollOption = PollOption(content: string, isCorrect: bool)

  datatype Poll = Poll(
    id: Id,
    question: string,
    options: seq<PollOption>,
    timeLimit: int,
    active: bool,
    createdBy: Id)

  /** `selectedOption` is whatever number the student sent; nothing checks its range. */
  datatype Answer = Answer(pollId: Id, studentId: Id, selectedOption: int)

  /** An option as students see it: its content only. */
  datatype PublicOption = PublicOption(content: string)

  /** A poll as broadcast by `new-poll`: every field, but options without `isCorrect`. */
  datatype PublicPoll = PublicPoll(
    id: Id,
    question: string,
    options: seq<PublicOption>,
    timeLimit: int,
    active: bool,
    createdBy: Id)

  /** The socket events the server emits to every client. */
  datatype Event =
    | NewPoll(poll: PublicPoll)
    | TimerUpdate(remaining: int)
    | PollEnded(results: seq<real>)

  /** Strips the answer key: each option is reduced to its content, in order. */
  function Sanitize(p: Poll): (b: PublicPoll)
    ensures |b.options| == |p.options|
    ensures forall i :: 0 <= i < |p.options| ==> b.options[i].content == p.options[i].content
    ensures b.id == p.id && b.question == p.question && b.timeLimit == p.timeLimit
    ensures b.active == p.active && b.createdBy == p.createdBy
  {
    PublicPoll(p.id, p.question,
      seq(|p.options|, i requires 0 <= i < |p.options| => PublicOption(p.options[i].content)),
      p.timeLimit, p.active, p.createdBy)
  }

  /** Two polls that differ at most in their answer key. */
  predicate SameButAnswerKey(p: Poll, q: Poll) {
    && p.id == q.id && p.question == q.question && p.timeLimit == q.timeLimit
    && p.active == q.active && p.createdBy == q.createdBy
    && |p.options| == |q.options|
    && forall i :: 0 <= i < |p.options| ==> p.options[i].content == q.options[i].content
  }

  /**
    The broadcast reveals everything about a poll except its answer key: two
    polls are broadcast alike exactly when they differ only in `isCorrect` flags.
   */
  lemma SanitizeHidesOnlyAnswerKey(p: Poll, q: Poll)
    ensures Sanitize(p) == Sanitize(q) <==> SameButAnswerKey(p, q)
  {
    if SameButAnswerKey(p, q) {
      assert Sanitize(p).options == Sanitize(q).options;
    }
    if Sanitize(p) == Sanitize(q) {
      forall i | 0 <= i < |p.options|
        ensures p.options[i].content == q.options[i].content
      {
        assert Sanitize(p).options[i] == Sanitize(q).options[i];
      }
    }
  }
}

=== FILE: server.dfy ===
/**
  The poll server: the user registry, the poll store, the answer list, the live
  poll timers and the log of emitted socket events, with each request handler
  and each timer tick taken as one atomic step.
 */
module PollServer {

  import opened Wrappers
  import opened Schema
  import Results
  import Timer

  /** `Invalid teacher` (HTTP 403), and a document the schema refuses to save (HTTP 500). */
  datatype ServerError = InvalidTeacher | ValidationFailed

  /**
    `timers` maps the poll id of every interval that has not cleared itself to
    its remaining count; `log` is every event emitted to all clients, in order.
   */
  datatype Server = Server(
    users: seq<User>,
    polls: seq<Poll>,
    answers: seq<Answer>,
    timers: map<Id, int>,
    nextId: Id,
    log: seq<Event>)

  function Init(): Server {
    Server([], [], [], map[], 0, [])
  }

  // ---------------------------------------------------------------- lookups

  predicate Matches(u: User, name: string, roleTag: string) {
    u.name == name && RoleTag(u.role) == roleTag
  }

  /** Some user with this name and role is registered. */
  predicate Registered(users: seq<User>, name: string, roleTag: string) {
    exists u :: u in users && Matches(u, name, roleTag)
  }

  /** `User.findOne({ name, role })`: the first match in insertion order. */
  function FindUserByName(users: seq<User>, name: string, roleTag: string): (r: Option<User>)
    ensures r.Some? ==> r.value in users && Matches(r.value, name, roleTag)
    ensures r.None? <==> !Registered(users, name, roleTag)
  {
    if |users| == 0 then None
    else if Matches(users[0], name, roleTag) then Some(users[0])
    else FindUserByName(users[1..], name, roleTag)
  }

  /** `User.findById(id)`. */
  function FindUser(users: seq<User>, id: Id): (r: Option<User>)
    ensures r.Some? ==> r.value in users && r.value.id == id
    ensures r.None? <==> forall u :: u in users ==> u.id != id
  {
    if |users| == 0 then None
    else if users[0].id == id then Some(users[0])
    else FindUser(users[1..], id)
  }

  /** `Poll.findById(id)`. */
  function FindPoll(polls: seq<Poll>, id: Id): (r: Option<Poll>)
    ensures r.Some? ==> r.value in polls && r.value.id == id
    ensures r.None? <==> forall p :: p in polls ==> p.id != id
  {
    if |polls| == 0 then None
    else if polls[0].id == id then Some(polls[0])
    else FindPoll(polls[1..], id)
  }

  /** `Poll.findOne({ active: true })`. */
  function FindActive(polls: seq<Poll>): (r: Option<Poll>)
    ensures r.Some? ==> r.value in polls && r.value.active
    ensures r.None? <==> forall p :: p in polls ==> !p.active
  {
    if |polls| == 0 then None
    else if polls[0].active then Some(polls[0])
    else FindActive(polls[1..])
  }

  /** `Answer.findOne({ pollId, studentId })`. */
  function FindAnswer(answers: seq<Answer>, pollId: Id, studentId: Id): (r: Option<Answer>)
    ensures r.Some? ==> r.value in answers && r.value.pollId == pollId && r.value.studentId == studentId
    ensures r.None? <==> forall a :: a in answers ==> !(a.pollId == pollId && a.studentId == studentId)
  {
    if |answers| == 0 then None
    else if answers[0].pollId == pollId && answers[0].studentId == studentId then Some(answers[0])
    else FindAnswer(answers[1..], pollId, studentId)
  }

  /** `Poll.deleteMany({ active: true })`: the inactive polls, in their order. */
  function RemoveActive(polls: seq<Poll>): (r: seq<Poll>)
    ensures forall p :: p in r <==> p in polls && !p.active
  {
    if |polls| == 0 then []
    else (if polls[0].active then [] else [polls[0]]) + RemoveActive(polls[1..])
  }

  /** Saves the poll with this id with `active = false`; nothing else changes. */
  function SetInactive(polls: seq<Poll>, id: Id): (r: seq<Poll>)
    ensures |r| == |polls|
    ensures forall i :: 0 <= i < |polls| ==> r[i] == if polls[i].id == id then polls[i].(active := false) else polls[i]
  {
    seq(|polls|, i requires 0 <= i < |polls| => if polls[i].id == id then polls[i].(active := false) else polls[i])
  }

  // ------------------------------------------------------------- operations

  /**
    `POST /api/create-user`: returns the registered user with this name and
    role, registering one under a fresh id only when there is none.
   */
  function CreateUser(s: Server, name: string, roleTag: string): (r: (Server, Result<User, ServerError>))
    ensures Registered(s.users, name, roleTag) ==> r.0 == s && r.1.Ok? && r.1.value in s.users
    ensures r.1.Ok? ==> Matches(r.1.value, name, roleTag) && r.1.value in r.0.users
    ensures r.1.Err? <==> !Registered(s.users, name, roleTag) && (name == "" || ParseRole(roleTag).None?)
    ensures r.1.Err? ==> r.0 == s && r.1.error == ValidationFailed
    ensures !Registered(s.users, name, roleTag) && r.1.Ok? ==>
              && r.1.value.id == s.nextId
              && r.0 == s.(users := s.users + [r.1.value], nextId := s.nextId + 1)
  {
    match FindUserByName(s.users, name, roleTag)
    case Some(u) => (s, Ok(u))
    case None =>
      match ParseRole(roleTag)
      case None => (s, Err(ValidationFailed))
      case Some(role) =>
        if name == "" then (s, Err(ValidationFailed))
        else
          var u := User(s.nextId, name, role);
          (s.(users := s.users + [u], nextId := s.nextId + 1), Ok(u))
  }

  /** `createdBy` resolves to a user whose role is teacher. */
  function IsTeacher(users: seq<User>, id: Id): (r: bool)
    ensures r ==> exists u :: u in users && u.id == id && u.role == Teacher
    ensures (forall u :: u in users ==> u.id != id) ==> !r
  {
    FindUser(users, id).Some? && FindUser(users, id).value.role == Teacher
  }

  /** An option the schema refuses: its required `content` is empty. */
  function HasEmptyContent(options: seq<PollOption>): (r: bool)
    ensures r <==> exists o :: o in options && o.content == ""
  {
    exists i :: 0 <= i < |options| && options[i].content == ""
  }

  /**
    `POST /api/create-poll`: a non-teacher is refused with nothing changed;
    otherwise every active poll is deleted, and then the new poll is saved as
    the only active one, broadcast without its answer key, and its timer
    started. A poll the schema refuses is not saved, but the deletion has
    already happened.
   */
  function CreatePoll(s: Server, question: string, options: seq<PollOption>, timeLimit: int, createdBy: Id)
    : (r: (Server, Result<Poll, ServerError>))
    ensures r.1 == Err(InvalidTeacher) <==> !IsTeacher(s.users, createdBy)
    ensures r.1 == Err(InvalidTeacher) ==> r.0 == s
    ensures r.1 == Err(ValidationFailed) <==> IsTeacher(s.users, createdBy) && HasEmptyContent(options)
    ensures r.1 == Err(ValidationFailed) ==>
              r.0 == s.(polls := RemoveActive(s.polls))
    ensures IsTeacher(s.users, createdBy) ==>
              && (forall p :: p in s.polls && !p.active ==> p in r.0.polls)
              && (forall p :: p in r.0.polls ==> (p in s.polls && !p.active) || (r.1.Ok? && p == r.1.value))
              && r.0.users == s.users && r.0.answers == s.answers
    ensures r.1.Ok? ==>
              && r.1.value == Poll(s.nextId, question, options, timeLimit, true, createdBy)
              && r.1.value in r.0.polls
              && r.0.nextId == s.nextId + 1
              && r.0.timers == s.timers[s.nextId := timeLimit]
              && r.0.log == s.log + [NewPoll(Sanitize(r.1.value))]
  {
    if !IsTeacher(s.users, createdBy) then (s, Err(InvalidTeacher))
    else
      var cleared := s.(polls := RemoveActive(s.polls));
      if HasEmptyContent(options) then (cleared, Err(ValidationFailed))
      else
        var p := Poll(s.nextId, question, options, timeLimit, true, createdBy);
        var s' := cleared.(
          polls := cleared.polls + [p],
          nextId := s.nextId + 1,
          timers := s.timers[p.id := timeLimit],
          log := s.log + [NewPoll(Sanitize(p))]);
        (s', Ok(p))
  }

  /** The answer is recorded: its poll exists and is active, and the student has not answered it yet. */
  function Accepts(s: Server, pollId: Id, studentId: Id): (r: bool)
    ensures r ==> exists p :: p in s.polls && p.id == pollId && p.active
    ensures r <==> (exists p :: p in s.polls && p.id == pollId) && FindPoll(s.polls, pollId).value.active
                   && forall a :: a in s.answers ==> !(a.pollId == pollId && a.studentId == studentId)
  {
    && FindPoll(s.polls, pollId).Some?
    && FindPoll(s.polls, pollId).value.active
    && FindAnswer(s.answers, pollId, studentId).None?
  }

  /**
    The `submit-answer` handler: appends the answer when it is accepted and
    otherwise changes nothing. The selected index is stored unchecked.
   */
  function SubmitAnswer(s: Server, pollId: Id, studentId: Id, selectedOption: int): (r: Server)
    ensures r.users == s.users && r.polls == s.polls && r.timers == s.timers
    ensures r.nextId == s.nextId && r.log == s.log
    ensures r.answers == s.answers || r.answers == s.answers + [Answer(pollId, studentId, selectedOption)]
    ensures r.answers != s.answers <==> Accepts(s, pollId, studentId)
    ensures r.answers != s.answers ==>
              && (exists p :: p in s.polls && p.id == pollId && p.active)
              && (forall a :: a in s.answers ==> !(a.pollId == pollId && a.studentId == studentId))
  {
    if Accepts(s, pollId, studentId)
    then s.(answers := s.answers + [Answer(pollId, studentId, selectedOption)])
    else s
  }

  /** The `get-current-poll` handler: the active poll without its answer key, if there is one. */
  function GetCurrentPoll(s: Server): (r: Option<PublicPoll>)
    ensures r.Some? ==> exists p :: p in s.polls && p.active && r.value == Sanitize(p)
    ensures r.None? <==> forall p :: p in s.polls ==> !p.active
  {
    match FindActive(s.polls)
    case None => None
    case Some(p) => Some(Sanitize(p))
  }

  /**
    One firing of the interval of poll `pollId`: it emits the decremented
    count; when that is at or below zero the interval clears itself and, if the
    poll still exists, the poll is saved inactive and its results are emitted.
   */
  function Tick(s: Server, pollId: Id): (r: Server)
    ensures r.users == s.users && r.answers == s.answers && r.nextId == s.nextId
    ensures pollId !in s.timers ==> r == s
    ensures pollId in s.timers ==>
              var t := Timer.Step(s.timers[pollId]);
              && |r.log| > |s.log|
              && r.log[..|s.log| + 1] == s.log + [TimerUpdate(t.shown)]
              && (!t.expired ==> r.timers == s.timers[pollId := t.shown] && r.polls == s.polls
                                 && r.log == s.log + [TimerUpdate(t.shown)])
              && (t.expired ==> r.timers == s.timers - {pollId})
              && (t.expired && FindPoll(s.polls, pollId).None? ==>
                    r.polls == s.polls && r.log == s.log + [TimerUpdate(t.shown)])
              && (t.expired && FindPoll(s.polls, pollId).Some? ==>
                    && (forall p :: p in r.polls && p.id == pollId ==> !p.active)
                    && r.polls == SetInactive(s.polls, pollId)
                    && r.log == s.log + [TimerUpdate(t.shown),
                         PollEnded(Results.CalculateResults(s.answers, pollId, |FindPoll(s.polls, pollId).value.options|))])
  {
    if pollId !in s.timers then s
    else
      var t := Timer.Step(s.timers[pollId]);
      var log := s.log + [TimerUpdate(t.shown)];
      if !t.expired then s.(timers := s.timers[pollId := t.shown], log := log)
      else
        var stopped := s.(timers := s.timers - {pollId}, log := log);
        match FindPoll(s.polls, pollId)
        case None => stopped
        case Some(p) =>
          stopped.(
            polls := SetInactive(s.polls, pollId),
            log := log + [PollEnded(Results.CalculateResults(s.answers, pollId, |p.options|))])
  }

  // ------------------------------------------------------------- the system

  /** The server's inputs; `get-current-poll` only reads, so it changes nothing. */
  datatype Op =
    | CreateUserOp(name: string, roleTag: string)
    | CreatePollOp(question: string, options: seq<PollOption>, timeLimit: int, createdBy: Id)
    | SubmitAnswerOp(pollId: Id, studentId: Id, selectedOption: int)
    | TickOp(timer: Id)
    | GetCurrentPollOp

  function Step(s: Server, op: Op): Server {
    match op
    case CreateUserOp(name, roleTag) => CreateUser(s, name, roleTag).0
    case CreatePollOp(question, options, timeLimit, createdBy) => CreatePoll(s, question, options, timeLimit, createdBy).0
    case SubmitAnswerOp(pollId, studentId, selectedOption) => SubmitAnswer(s, pollId, studentId, selectedOption)
    case TickOp(timer) => Tick(s, timer)
    case GetCurrentPollOp => s
  }

  function Run(s: Server, ops: seq<Op>): Server
    decreases |ops|
  {
    if |ops| == 0 then s else Run(Step(s, ops[0]), ops[1..])
  }
}

=== FILE: server_invariants.dfy ===
/**
  What every reachable server state satisfies, and the properties of the
  handlers that relate several steps: at most one active poll, one answer per
  student and poll that is never overwritten, idempotent registration, and the
  fate of a superseded poll's timer.
 */
module ServerInvariants {

  import opened Wrappers
  import opened Schema
  import opened PollServer
  import Results
  import Timer

  // ------------------------------------------------------------- invariants

  /** Every id in use came from the counter. */
  predicate IdsBelowNext(s: Server) {
    && (forall u :: u in s.users ==> u.id < s.nextId)
    && (forall p :: p in s.polls ==> p.id < s.nextId)
    && (forall k :: k in s.timers ==> k < s.nextId)
  }

  /** Polls are stored in creation order, so their ids increase. */
  predicate IncreasingIds(polls: seq<Poll>) {
    forall i, j :: 0 <= i < j < |polls| ==> polls[i].id < polls[j].id
  }

  /** No two users share an id, nor a (name, role) pair. */
  predicate DistinctUsers(users: seq<User>) {
    forall i, j :: 0 <= i < j < |users| ==>
      users[i].id != users[j].id && !(users[i].name == users[j].name && users[i].role == users[j].role)
  }

  predicate AtMostOneActive(polls: seq<Poll>) {
    forall i, j :: 0 <= i < |polls| && 0 <= j < |polls| && polls[i].active && polls[j].active ==> i == j
  }

  /** At most one answer per (poll, student). */
  predicate OneAnswerPerStudent(answers: seq<Answer>) {
    forall i, j ::
      (0 <= i < |answers| && 0 <= j < |answers|
       && answers[i].pollId == answers[j].pollId && answers[i].studentId == answers[j].studentId) ==> i == j
  }

  /** A stored poll is active exactly when its interval is still running. */
  predicate ActiveIffTimed(s: Server) {
    forall p :: p in s.polls ==> (p.active <==> p.id in s.timers)
  }

  predicate Valid(s: Server) {
    && IdsBelowNext(s)
    && IncreasingIds(s.polls)
    && DistinctUsers(s.users)
    && AtMostOneActive(s.polls)
    && OneAnswerPerStudent(s.answers)
    && ActiveIffTimed(s)
  }

  lemma InitValid()
    ensures Valid(Init())
  {
  }

  lemma IncreasingIdsUnique(polls: seq<Poll>, p: Poll, q: Poll)
    requires IncreasingIds(polls) && p in polls && q in polls && p.id == q.id
    ensures p == q
  {
    var i :| 0 <= i < |polls| && polls[i] == p;
    var j :| 0 <= j < |polls| && polls[j] == q;
    assert !(i < j) && !(j < i);
  }

  lemma {:induction false} RemoveActiveIncreasing(polls: seq<Poll>)
    requires IncreasingIds(polls)
    ensures IncreasingIds(RemoveActive(polls))
  {
    if |polls| > 0 {
      var tail := polls[1..];
      RemoveActiveIncreasing(tail);
      var rest := RemoveActive(tail);
      forall j | 0 <= j < |rest|
        ensures polls[0].id < rest[j].id
      {
        assert rest[j] in tail;
      }
    }
  }

  // ------------------------------------------------- preservation, per step

  lemma CreateUserValid(s: Server, name: string, roleTag: string)
    requires Valid(s)
    ensures Valid(CreateUser(s, name, roleTag).0)
  {
    var r := CreateUser(s, name, roleTag);
    if r.0 != s {
      var u := r.1.value;
      forall i | 0 <= i < |s.users|
        ensures s.users[i].id != u.id
        ensures !(s.users[i].name == u.name && s.users[i].role == u.role)
      {
        assert s.users[i] in s.users;
      }
    }
  }

  lemma CreatePollValid(s: Server, question: string, options: seq<PollOption>, timeLimit: int, createdBy: Id)
    requires Valid(s)
    ensures Valid(CreatePoll(s, question, options, timeLimit, createdBy).0)
  {
    var r := CreatePoll(s, question, options, timeLimit, createdBy);
    if IsTeacher(s.users, createdBy) {
      var cleared := s.(polls := RemoveActive(s.polls));
      RemoveActiveValid(s);
      if r.1.Ok? {
        AddPollValid(cleared, r.1.value, r.0);
      }
    }
  }

  /** Deleting every active poll (the `deleteMany`) keeps the invariant and leaves no poll active. */
  lemma RemoveActiveValid(s: Server)
    requires Valid(s)
    ensures Valid(s.(polls := RemoveActive(s.polls)))
    ensures forall p :: p in RemoveActive(s.polls) ==> !p.active
  {
    RemoveActiveIncreasing(s.polls);
  }

  /** Appending a fresh, timed poll when none is active keeps the invariant. */
  lemma AddPollValid(c: Server, p: Poll, r: Server)
    requires Valid(c) && forall q :: q in c.polls ==> !q.active
    requires p.active && p.id == c.nextId
    requires r.users == c.users && r.answers == c.answers
    requires r.polls == c.polls + [p] && r.nextId == c.nextId + 1 && r.timers == c.timers[p.id := p.timeLimit]
    ensures Valid(r)
  {
    forall i | 0 <= i < |c.polls|
      ensures c.polls[i].id < p.id && !c.polls[i].active
    {
      assert c.polls[i] in c.polls;
    }
  }

  lemma SubmitAnswerValid(s: Server, pollId: Id, studentId: Id, selectedOption: int)
    requires Valid(s)
    ensures Valid(SubmitAnswer(s, pollId, studentId, selectedOption))
  {
    var r := SubmitAnswer(s, pollId, studentId, selectedOption);
    if r.answers != s.answers {
      forall i | 0 <= i < |s.answers|
        ensures !(s.answers[i].pollId == pollId && s.answers[i].studentId == studentId)
      {
        assert s.answers[i] in s.answers;
      }
    }
  }

  lemma SetInactiveValid(s: Server, pollId: Id, r: Server)
    requires Valid(s) && pollId in s.timers
    requires r.users == s.users && r.answers == s.answers && r.nextId == s.nextId
    requires r.polls == SetInactive(s.polls, pollId) && r.timers == s.timers - {pollId}
    ensures Valid(r)
  {
    assert forall i :: 0 <= i < |r.polls| ==> r.polls[i].id == s.polls[i].id;
    assert IncreasingIds(r.polls);
    forall p | p in r.polls
      ensures p.active <==> p.id in r.timers
      ensures p.id < r.nextId
    {
      var i :| 0 <= i < |r.polls| && r.polls[i] == p;
      assert s.polls[i] in s.polls;
    }
    forall i, j | 0 <= i < |r.polls| && 0 <= j < |r.polls| && r.polls[i].active && r.polls[j].active
      ensures i == j
    {
      assert s.polls[i].active && s.polls[j].active;
    }
  }

  lemma TickValid(s: Server, pollId: Id)
    requires Valid(s)
    ensures Valid(Tick(s, pollId))
  {
    var r := Tick(s, pollId);
    if pollId in s.timers {
      var t := Timer.Step(s.timers[pollId]);
      if t.expired {
        if FindPoll(s.polls, pollId).Some? {
          SetInactiveValid(s, pollId, r);
        } else {
          assert r.polls == s.polls && r.timers == s.timers - {pollId};
        }
      } else {
        assert r.polls == s.polls && r.timers.Keys == s.timers.Keys;
      }
    }
  }

  lemma StepValid(s: Server, op: Op)
    requires Valid(s)
    ensures Valid(Step(s, op))
  {
    match op
    case CreateUserOp(name, roleTag) => CreateUserValid(s, name, roleTag);
    case CreatePollOp(question, options, timeLimit, createdBy) =>
      CreatePollValid(s, question, options, timeLimit, createdBy);
    case SubmitAnswerOp(pollId, studentId, selectedOption) =>
      SubmitAnswerValid(s, pollId, studentId, selectedOption);
    case TickOp(timer) => TickValid(s, timer);
    case GetCurrentPollOp =>
  }

  lemma {:induction false} RunValid(s: Server, ops: seq<Op>)
    requires Valid(s)
    ensures Valid(Run(s, ops))
    decreases |ops|
  {
    if |ops| > 0 {
      StepValid(s, ops[0]);
      RunValid(Step(s, ops[0]), ops[1..]);
    }
  }

  /** Whatever the server is asked, there is never more than one active poll, nor two answers from one student to one poll. */
  lemma ReachableStatesAreValid(ops: seq<Op>)
    ensures AtMostOneActive(Run(Init(), ops).polls)
    ensures OneAnswerPerStudent(Run(Init(), ops).answers)
  {
    InitValid();
    RunValid(Init(), ops);
  }

  /** With user ids distinct, a creator passes the teacher check exactly when a stored teacher has that id. */
  lemma IsTeacherIff(s: Server, id: Id)
    requires Valid(s)
    ensures IsTeacher(s.users, id) <==> exists u :: u in s.users && u.id == id && u.role == Teacher
  {
    if u :| u in s.users && u.id == id && u.role == Teacher {
      var v := FindUser(s.users, id).value;
      var i :| 0 <= i < |s.users| && s.users[i] == u;
      var j :| 0 <= j < |s.users| && s.users[j] == v;
      assert s.users[i].id == s.users[j].id;
    }
  }

  // ------------------------------------------------------------ create-user

  lemma {:induction false} FindUserByNameAppend(users: seq<User>, u: User, name: string, roleTag: string)
    requires !Registered(users, name, roleTag) && Matches(u, name, roleTag)
    ensures FindUserByName(users + [u], name, roleTag) == Some(u)
  {
    if |users| > 0 {
      assert (users + [u])[1..] == users[1..] + [u];
      FindUserByNameAppend(users[1..], u, name, roleTag);
    }
  }

  /** Registering the same (name, role) again returns the same user and changes nothing. */
  lemma CreateUserIdempotent(s: Server, name: string, roleTag: string)
    ensures var (s1, r1) := CreateUser(s, name, roleTag);
            r1.Ok? ==> CreateUser(s1, name, roleTag) == (s1, r1)
  {
    var (s1, r1) := CreateUser(s, name, roleTag);
    if r1.Ok? && !Registered(s.users, name, roleTag) {
      FindUserByNameAppend(s.users, r1.value, name, roleTag);
    }
  }

  // ------------------------------------------------------------ create-poll

  /**
    After a successful create-poll the new poll is the only active one, no
    previously active poll is left in the store under its id, and a late
    joiner's `get-current-poll` receives what `new-poll` broadcast, up to the
    populated `createdBy`, which is left out.
   */
  lemma CreatePollSupersedes(s: Server, question: string, options: seq<PollOption>, timeLimit: int, createdBy: Id)
    requires Valid(s)
    ensures var (s1, r1) := CreatePoll(s, question, options, timeLimit, createdBy);
            r1.Ok? ==>
              && (forall p :: p in s1.polls && p.active ==> p == r1.value)
              && (forall q, p :: q in s.polls && q.active && p in s1.polls ==> p.id != q.id)
              && GetCurrentPoll(s1) == Some(Sanitize(r1.value))
              && s1.log[|s1.log| - 1] == NewPoll(GetCurrentPoll(s1).value)
  {
    var (s1, r1) := CreatePoll(s, question, options, timeLimit, createdBy);
    if r1.Ok? {
      forall q, p | q in s.polls && q.active && p in s1.polls
        ensures p.id != q.id
      {
        if p != r1.value {
          if p.id == q.id {
            IncreasingIdsUnique(s.polls, p, q);
          }
        }
      }
    }
  }

  // ---------------------------------------------------------- submit-answer

  lemma {:induction false} FindAnswerAppend(answers: seq<Answer>, a: Answer, pollId: Id, studentId: Id)
    ensures FindAnswer(answers + [a], pollId, studentId) ==
              if FindAnswer(answers, pollId, studentId).Some? then FindAnswer(answers, pollId, studentId)
              else if a.pollId == pollId && a.studentId == studentId then Some(a)
              else None
  {
    if |answers| > 0 {
      assert (answers + [a])[1..] == answers[1..] + [a];
      FindAnswerAppend(answers[1..], a, pollId, studentId);
    }
  }

  /** With poll ids unique, an answer is accepted exactly when its poll is active and the student has not answered it. */
  lemma AcceptsIff(s: Server, pollId: Id, studentId: Id)
    requires Valid(s)
    ensures Accepts(s, pollId, studentId) <==>
              && (exists p :: p in s.polls && p.id == pollId && p.active)
              && (forall a :: a in s.answers ==> !(a.pollId == pollId && a.studentId == studentId))
  {
    if exists p :: p in s.polls && p.id == pollId && p.active {
      var p :| p in s.polls && p.id == pollId && p.active;
      IncreasingIdsUnique(s.polls, p, FindPoll(s.polls, pollId).value);
    }
  }

  /** An accepted answer is the one the store now returns for that student and poll. */
  lemma SubmitAnswerRecords(s: Server, pollId: Id, studentId: Id, selectedOption: int)
    requires Accepts(s, pollId, studentId)
    ensures FindAnswer(SubmitAnswer(s, pollId, studentId, selectedOption).answers, pollId, studentId)
         == Some(Answer(pollId, studentId, selectedOption))
  {
    FindAnswerAppend(s.answers, Answer(pollId, studentId, selectedOption), pollId, studentId);
  }

  lemma StepKeepsAnswer(s: Server, op: Op, pollId: Id, studentId: Id)
    ensures FindAnswer(s.answers, pollId, studentId).Some? ==>
              FindAnswer(Step(s, op).answers, pollId, studentId) == FindAnswer(s.answers, pollId, studentId)
  {
    if op.SubmitAnswerOp? {
      var a := Answer(op.pollId, op.studentId, op.selectedOption);
      FindAnswerAppend(s.answers, a, pollId, studentId);
    }
  }

  /** First answer wins: once a student's answer to a poll is stored, no sequence of requests replaces it. */
  lemma {:induction false} FirstAnswerWins(s: Server, ops: seq<Op>, pollId: Id, studentId: Id)
    requires FindAnswer(s.answers, pollId, studentId).Some?
    ensures FindAnswer(Run(s, ops).answers, pollId, studentId) == FindAnswer(s.answers, pollId, studentId)
    decreases |ops|
  {
    if |ops| > 0 {
      StepKeepsAnswer(s, ops[0], pollId, studentId);
      FirstAnswerWins(Step(s, ops[0]), ops[1..], pollId, studentId);
    }
  }

  // ------------------------------------------------------ superseded timers

  /** Poll `pollId` was created once and is no longer in the store. */
  predicate Gone(s: Server, pollId: Id) {
    pollId < s.nextId && forall p :: p in s.polls ==> p.id != pollId
  }

  lemma StepKeepsGone(s: Server, op: Op, pollId: Id)
    requires Gone(s, pollId)
    ensures Gone(Step(s, op), pollId)
  {
  }

  /** A deleted poll never comes back: ids are fresh and nothing restores a deleted document. */
  lemma {:induction false} RunKeepsGone(s: Server, ops: seq<Op>, pollId: Id)
    requires Gone(s, pollId)
    ensures Gone(Run(s, ops), pollId)
    decreases |ops|
  {
    if |ops| > 0 {
      StepKeepsGone(s, ops[0], pollId);
      RunKeepsGone(Step(s, ops[0]), ops[1..], pollId);
    }
  }

  /** The interval of a deleted poll still emits `timer-update`, but never `poll-ended`. */
  lemma TickOfGonePoll(s: Server, pollId: Id)
    requires Gone(s, pollId)
    ensures var r := Tick(s, pollId);
            r.log == s.log || (pollId in s.timers && r.log == s.log + [TimerUpdate(s.timers[pollId] - 1)])
  {
  }

  /**
    A poll superseded by a teacher's create-poll never gets results: whatever
    happens afterwards, each firing of its still-running interval emits at
    most a `timer-update` and no `poll-ended`.
   */
  lemma SupersededPollNeverEnds(s: Server, q: Poll, question: string, options: seq<PollOption>,
                                timeLimit: int, createdBy: Id, ops: seq<Op>)
    requires Valid(s) && q in s.polls && q.active && IsTeacher(s.users, createdBy)
    ensures var later := Run(CreatePoll(s, question, options, timeLimit, createdBy).0, ops);
            forall e :: e in Tick(later, q.id).log[|later.log|..] ==> e.TimerUpdate?
  {
    var s1 := CreatePoll(s, question, options, timeLimit, createdBy).0;
    forall p | p in s1.polls
      ensures p.id != q.id
    {
      if p in s.polls && !p.active && p.id == q.id {
        IncreasingIdsUnique(s.polls, p, q);
      }
    }
    assert Gone(s1, q.id);
    RunKeepsGone(s1, ops, q.id);
    TickOfGonePoll(Run(s1, ops), q.id);
  }

  // ------------------------------------------------------- running a timer

  /** The remaining counts of the `timer-update` events, in order. */
  function Updates(events: seq<Event>): seq<int> {
    if |events| == 0 then []
    else (if events[0].TimerUpdate? then [events[0].remaining] else []) + Updates(events[1..])
  }

  /** The number of `poll-ended` events. */
  function Ends(events: seq<Event>): nat {
    if |events| == 0 then 0
    else (if events[0].PollEnded? then 1 else 0) + Ends(events[1..])
  }

  lemma {:induction false} EventsConcat(a: seq<Event>, b: seq<Event>)
    ensures Updates(a + b) == Updates(a) + Updates(b)
    ensures Ends(a + b) == Ends(a) + Ends(b)
  {
    if |a| == 0 {
      assert a + b == b;
    } else {
      assert (a + b)[0] == a[0];
      assert (a + b)[1..] == a[1..] + b;
      EventsConcat(a[1..], b);
    }
  }

  /** Fires the interval of `pollId`, with nothing else happening, until it clears itself. */
  function Drain(s: Server, pollId: Id): Server
    decreases if pollId in s.timers && s.timers[pollId] > 0 then s.timers[pollId] else 0,
              if pollId in s.timers then 1 else 0
  {
    if pollId !in s.timers then s else Drain(Tick(s, pollId), pollId)
  }

  /** The last firing: the interval stops, and the poll, if still stored, ends. */
  lemma ExpiringTick(s: Server, pollId: Id)
    requires pollId in s.timers && Timer.Step(s.timers[pollId]).expired
    ensures var r := Tick(s, pollId);
            && pollId !in r.timers && Drain(s, pollId) == r
            && |s.log| <= |r.log| && r.log[..|s.log|] == s.log
            && Updates(r.log[|s.log|..]) == [Timer.Step(s.timers[pollId]).shown]
            && Ends(r.log[|s.log|..]) == if FindPoll(s.polls, pollId).Some? then 1 else 0
  {
    var t := Timer.Step(s.timers[pollId]);
    var r := Tick(s, pollId);
    assert Drain(s, pollId) == Drain(r, pollId);
    match FindPoll(s.polls, pollId)
    case Some(p) =>
      var ended := PollEnded(Results.CalculateResults(s.answers, pollId, |p.options|));
      assert r.log == s.log + [TimerUpdate(t.shown), ended];
      assert r.log[|s.log|..] == [TimerUpdate(t.shown), ended];
      CountdownTail(t.shown, ended);
    case None =>
      assert r.log[|s.log|..] == [TimerUpdate(t.shown)];
      CountdownTail(t.shown, TimerUpdate(t.shown));
  }

  /** The events of a last firing: the final count, then possibly the results. */
  lemma CountdownTail(shown: int, ended: Event)
    ensures Updates([TimerUpdate(shown)]) == [shown] && Ends([TimerUpdate(shown)]) == 0
    ensures ended.PollEnded? ==>
              Updates([TimerUpdate(shown), ended]) == [shown] && Ends([TimerUpdate(shown), ended]) == 1
  {
    assert [TimerUpdate(shown)][1..] == [];
    assert [TimerUpdate(shown), ended][1..] == [ended];
    assert [ended][1..] == [];
  }

  /** A firing that leaves the interval running only emits the new count. */
  lemma RunningTick(s: Server, pollId: Id)
    requires pollId in s.timers && !Timer.Step(s.timers[pollId]).expired
    ensures var r := Tick(s, pollId);
            && pollId in r.timers && r.timers[pollId] == Timer.Step(s.timers[pollId]).shown
            && r.polls == s.polls && r.log == s.log + [TimerUpdate(r.timers[pollId])]
            && Drain(s, pollId) == Drain(r, pollId)
  {
  }

  /**
    An interval started with count `n` emits exactly `Timer.Countdown(n)` and
    clears itself; it emits one `poll-ended` if its poll is in the store and
    none if the poll was deleted.
   */
  lemma {:induction false} DrainEmitsCountdown(s: Server, pollId: Id)
    requires pollId in s.timers
    decreases if s.timers[pollId] > 0 then s.timers[pollId] else 0
    ensures var d := Drain(s, pollId);
            && pollId !in d.timers
            && |s.log| <= |d.log| && d.log[..|s.log|] == s.log
            && Updates(d.log[|s.log|..]) == Timer.Countdown(s.timers[pollId])
            && Ends(d.log[|s.log|..]) == if FindPoll(s.polls, pollId).Some? then 1 else 0
  {
    var t := Timer.Step(s.timers[pollId]);
    if t.expired {
      ExpiringTick(s, pollId);
    } else {
      var s1 := Tick(s, pollId);
      var d := Drain(s, pollId);
      RunningTick(s, pollId);
      DrainEmitsCountdown(s1, pollId);
      var rest := d.log[|s1.log|..];
      assert d.log[|s.log|..] == [TimerUpdate(t.shown)] + rest;
      EventsConcat([TimerUpdate(t.shown)], rest);
      assert [TimerUpdate(t.shown)][1..] == [];
    }
  }

  /**
    The poll just created with time limit `n` counts down `n-1, ..., 0` (a
    single `n-1` when `n <= 0`) and then ends exactly once, when its interval
    fires with no other operation in between. Interleaved operations do not
    move the countdown (RunKeepsTimer), but a later create-poll deletes the
    poll so that it never ends (SupersededPollNeverEnds).
   */
  lemma NewPollCountsDown(s: Server, question: string, options: seq<PollOption>, timeLimit: int, createdBy: Id)
    ensures var (s1, r1) := CreatePoll(s, question, options, timeLimit, createdBy);
            r1.Ok? ==>
              var d := Drain(s1, r1.value.id);
              && |s1.log| <= |d.log|
              && Updates(d.log[|s1.log|..]) == Timer.Expected(timeLimit)
              && Ends(d.log[|s1.log|..]) == 1
  {
    var (s1, r1) := CreatePoll(s, question, options, timeLimit, createdBy);
    if r1.Ok? {
      DrainEmitsCountdown(s1, r1.value.id);
      Timer.CountdownIsExpected(timeLimit);
    }
  }

  /** An operation other than the poll's own tick leaves its running countdown where it was. */
  lemma StepKeepsTimer(s: Server, op: Op, pollId: Id)
    requires Valid(s) && pollId in s.timers && op != TickOp(pollId)
    ensures pollId in Step(s, op).timers && Step(s, op).timers[pollId] == s.timers[pollId]
  {
    match op
    case CreateUserOp(name, roleTag) =>
    case CreatePollOp(question, options, timeLimit, createdBy) =>
      assert pollId < s.nextId;
    case SubmitAnswerOp(pollId', studentId, selectedOption) =>
    case TickOp(timer) =>
    case GetCurrentPollOp =>
  }

  /**
    However other operations are interleaved, a countdown only moves when its
    own interval fires: between two firings it keeps its value.
   */
  lemma {:induction false} RunKeepsTimer(s: Server, ops: seq<Op>, pollId: Id)
    requires Valid(s) && pollId in s.timers
    requires forall i :: 0 <= i < |ops| ==> ops[i] != TickOp(pollId)
    ensures pollId in Run(s, ops).timers && Run(s, ops).timers[pollId] == s.timers[pollId]
    decreases |ops|
  {
    if |ops| > 0 {
      StepKeepsTimer(s, ops[0], pollId);
      StepValid(s, ops[0]);
      RunKeepsTimer(Step(s, ops[0]), ops[1..], pollId);
    }
  }

  lemma StepKeepsCleared(s: Server, op: Op, pollId: Id)
    requires pollId < s.nextId && pollId !in s.timers
    ensures pollId < Step(s, op).nextId && pollId !in Step(s, op).timers
  {
  }

  /** A cleared interval is never restarted: no later operation gives its poll id a countdown again. */
  lemma {:induction false} RunKeepsCleared(s: Server, ops: seq<Op>, pollId: Id)
    requires pollId < s.nextId && pollId !in s.timers
    ensures pollId !in Run(s, ops).timers
    decreases |ops|
  {
    if |ops| > 0 {
      StepKeepsCleared(s, ops[0], pollId);
      RunKeepsCleared(Step(s, ops[0]), ops[1..], pollId);
    }
  }
}

=== FILE: text.dfy ===
/**
  JavaScript's `String.prototype.trim` and the blank-string test `!s.trim()`
  that the client uses for names, questions and option contents.
 */
module Text {

  /** The ECMAScript WhiteSpace and LineTerminator code points that `trim` strips. */
  function IsWhitespace(c: char): (r: bool)
    ensures c == ' ' || c == '\t' || c == '\n' || c == '\r' ==> r
    ensures r ==> !('!' <= c <= '~')
  {
    || c == '\t' || c == '\n' || c == '\U{B}' || c == '\U{C}' || c == '\r' || c == ' '
    || c == '\U{A0}' || c == '\U{1680}' || ('\U{2000}' <= c <= '\U{200A}')
    || c == '\U{2028}' || c == '\U{2029}' || c == '\U{202F}' || c == '\U{205F}'
    || c == '\U{3000}' || c == '\U{FEFF}'
  }

  /** Drops the leading whitespace of `s`. */
  function TrimStart(s: string): (r: string)
    ensures |r| <= |s| && r == s[|s| - |r|..]
    ensures forall i :: 0 <= i < |s| - |r| ==> IsWhitespace(s[i])
    ensures |r| > 0 ==> !IsWhitespace(r[0])
  {
    if |s| > 0 && IsWhitespace(s[0]) then TrimStart(s[1..]) else s
  }

  /** Drops the trailing whitespace of `s`. */
  function TrimEnd(s: string): (r: string)
    ensures |r| <= |s| && r == s[..|r|]
    ensures forall i :: |r| <= i < |s| ==> IsWhitespace(s[i])
    ensures |r| > 0 ==> !IsWhitespace(r[|r| - 1])
  {
    if |s| > 0 && IsWhitespace(s[|s| - 1]) then TrimEnd(s[..|s| - 1]) else s
  }

  /** `s.trim()`: no longer than the input, and neither starting nor ending with whitespace. */
  function Trim(s: string): (r: string)
    ensures |r| <= |s|
    ensures |r| > 0 ==> !IsWhitespace(r[0]) && !IsWhitespace(r[|r| - 1])
  {
    var t := TrimStart(s);
    var e := TrimEnd(t);
    assert |e| > 0 ==> e[0] == t[0];
    e
  }

  /** `!s.trim()`: the string is empty once trimmed, that is, it is all whitespace. */
  function IsBlank(s: string): (r: bool)
    ensures r <==> forall i :: 0 <= i < |s| ==> IsWhitespace(s[i])
  {
    BlankIffAllWhitespace(s);
    Trim(s) == ""
  }

  /**
    Trimming keeps the middle slice `s[a..b]` of the input, where `a` counts the
    leading and `|s| - b` the trailing whitespace: everything cut is whitespace.
   */
  lemma TrimIsCore(s: string)
    ensures var a := |s| - |TrimStart(s)|;
            var b := a + |Trim(s)|;
            && 0 <= a <= b <= |s| && Trim(s) == s[a..b]
            && (forall i :: 0 <= i < a || b <= i < |s| ==> IsWhitespace(s[i]))
    ensures |Trim(s)| > 0 ==> !IsWhitespace(Trim(s)[0]) && !IsWhitespace(Trim(s)[|Trim(s)| - 1])
  {
    TrimSlice(s);
    TrimCutsWhitespace(s);
  }

  /** `Trim(s)` is the slice of `s` between the leading and the trailing whitespace. */
  lemma TrimSlice(s: string)
    ensures var a := |s| - |TrimStart(s)|;
            0 <= a <= a + |Trim(s)| <= |s| && Trim(s) == s[a..a + |Trim(s)|]
  {
    var t := TrimStart(s);
    var e := TrimEnd(t);
    var a := |s| - |t|;
    assert Trim(s) == e;
    SliceOfSuffix(s, a, |e|);
  }

  lemma SliceOfSuffix<T>(s: seq<T>, a: nat, n: nat)
    requires a + n <= |s|
    ensures s[a..][..n] == s[a..a + n]
  {
  }

  /** Every character outside that slice is whitespace. */
  lemma TrimCutsWhitespace(s: string)
    ensures var a := |s| - |TrimStart(s)|;
            forall i :: 0 <= i < a || a + |Trim(s)| <= i < |s| ==> IsWhitespace(s[i])
  {
    var t := TrimStart(s);
    var a := |s| - |t|;
    var b := a + |TrimEnd(t)|;
    assert t == s[a..];
    forall i | b <= i < |s|
      ensures IsWhitespace(s[i])
    {
      assert s[i] == t[i - a];
    }
  }

  /** A string trims to nothing exactly when every character of it is whitespace. */
  lemma BlankIffAllWhitespace(s: string)
    ensures Trim(s) == "" <==> forall i :: 0 <= i < |s| ==> IsWhitespace(s[i])
  {
    var t := TrimStart(s);
    if !forall i :: 0 <= i < |s| ==> IsWhitespace(s[i]) {
      var k :| 0 <= k < |s| && !IsWhitespace(s[k]);
      var a := |s| - |t|;
      assert a <= k;
      assert t == s[a..];
      assert t[k - a] == s[k];
      assert |TrimEnd(t)| > k - a;
    } else {
      AllWhitespaceTrimsAway(s);
    }
  }

  /** Leading-whitespace trimming empties a string made only of whitespace. */
  lemma {:induction false} AllWhitespaceTrimsAway(s: string)
    requires forall i :: 0 <= i < |s| ==> IsWhitespace(s[i])
    ensures TrimStart(s) == ""
  {
    if |s| > 0 {
      assert forall i :: 0 <= i < |s| - 1 ==> s[1..][i] == s[i + 1];
      AllWhitespaceTrimsAway(s[1..]);
    }
  }
}

=== FILE: timer.dfy ===
/**
  `startTimer`'s interval, one callback at a time: each tick decrements the
  remaining count, emits it as `timer-update`, and clears the interval once the
  count is at or below zero.
 */
module Timer {

  /** What one tick does: the value it emits and whether it clears the interval. */
  datatype Tick = Tick(shown: int, expired: bool)

  /** One firing of the interval with `remaining` seconds left. */
  function Step(remaining: int): (t: Tick)
    ensures t.shown < remaining
    ensures t.expired <==> t.shown <= 0
    ensures remaining > 0 ==> t.shown >= 0
  {
    var next := remaining - 1;
    Tick(next, next <= 0)
  }

  /** The values a timer started with `remaining` emits, up to and including the tick that expires it. */
  function Countdown(remaining: int): (emitted: seq<int>)
    decreases if remaining > 0 then remaining else 0
    ensures |emitted| >= 1 && emitted[0] == Step(remaining).shown
    ensures emitted[|emitted| - 1] <= 0
    ensures forall k :: 0 <= k < |emitted| - 1 ==> emitted[k] > 0
  {
    var t := Step(remaining);
    if t.expired then [t.shown] else [t.shown] + Countdown(t.shown)
  }

  /** The intended sequence: `n-1, n-2, ..., 0` for `n >= 1`, and the single value `n-1` otherwise. */
  function Expected(n: int): seq<int> {
    if n <= 0 then [n - 1] else seq(n, k => n - 1 - k)
  }

  /** The interval emits exactly the intended countdown and then stops. */
  lemma {:induction false} CountdownIsExpected(n: int)
    decreases if n > 0 then n else 0
    ensures Countdown(n) == Expected(n)
  {
    if n > 1 {
      CountdownIsExpected(n - 1);
      var e := [n - 1] + Expected(n - 1);
      assert Countdown(n) == e;
      assert forall k :: 0 <= k < n ==> e[k] == Expected(n)[k];
    }
  }

  /** The number of ticks until expiry: `n` for `n >= 1`, one tick otherwise. */
  lemma TicksUntilExpiry(n: int)
    ensures |Countdown(n)| == if n >= 1 then n else 1
  {
    CountdownIsExpected(n);
  }

  /**
    Runs the interval until it clears itself, collecting the emitted values;
    the loop stops at the first expiring tick.
   */
  method RunInterval(timeLimit: int) returns (emitted: seq<int>)
    ensures emitted == Expected(timeLimit)
  {
    var remaining := timeLimit;
    var running := true;
    emitted := [];
    while running
      invariant running ==> remaining == timeLimit - |emitted|
      invariant running && |emitted| > 0 ==> remaining > 0
      invariant |emitted| <= |Expected(timeLimit)|
      invariant emitted == Expected(timeLimit)[..|emitted|]
      invariant !running ==> emitted == Expected(timeLimit)
      decreases if running then (if remaining > 0 then remaining else 0) + 1 else 0
    {
      var t := Step(remaining);
      remaining := t.shown;
      emitted := emitted + [t.shown];
      if t.expired {
        running := false;
      }
    }
  }
}

=== FILE: wrappers.dfy ===
/** Helper datatypes shared by the server and the client model. */
module Wrappers {

  /** A value that may be absent: a failed lookup, a `null` React state. */
  datatype Option<+T> = None | Some(value: T)

  /** The outcome of an operation that can be refused with an error value. */
  datatype Result<+T, +E> = Ok(value: T) | Err(error: E)
}
